=== FILE: README.md ===
# Overlay maintenance of a browser peer-to-peer chat client, in Dafny

The client keeps a small overlay of WebRTC data links (PeerJS) to other
browsers, finds peers through a public MQTT presence topic, and falls back on
a few well-known "hub" peers whose ids are a fixed prefix followed by an
index. This project models the part of the client that decides which links
exist and what is sent over them:

- **Transport manager** (`modules/p2p.js`, module `P2P`): `connectTo` with
  its guard and its placeholder entry, `setupConn` with the admission
  decision and the handlers it attaches to a link (reject path, admitted
  handshake, data, close and error), `handleData` dispatch including the
  PEER_EX follow-up, `patrolHubs`, `maintenance` (prune, then gossip), and
  the transport's own `open` and `error` events with the error classifier.
- **Presence channel** (`modules/mqtt.js`, module `Mqtt`): the direct or
  proxied route, the `failCount` machine of `onConnect`/`onFail`/`onLost`,
  hub resignation and the pulse timer on connect, `onMessage` with its
  staleness filter and connect decisions, and `sendPresence`.
- **Application shell** (`app.js`, module `App`): `init` after its awaited
  preparations, the `loop` order and topology correction, the two-second
  initial check, and the visibility handler that stops and restarts the main
  loop.

Every handler is a pure function from the state (plus the event's inputs and
the clock readings) to a new state and a list of effects. Effects name what
the handler asks of the outside world: sends, dials, closes, timers, and calls
into collaborators that are not modelled (`Protocol.Effect`).

How the JavaScript is represented:

- The registry `state.conns` is a map paired with its key order
  (`Registry.Registry`), because `Object.keys` order matters: PEER_EX lists
  are prefixes of it. Overwriting a key keeps its place; deleting forgets it.
- A PeerJS link object has an identity (`Registry.Handle`). Data and open
  events mutate the object, so they are visible in the registry only while
  the registry holds that very object (`P2P.Tracked`). Close and error
  delete `conns[conn.peer]` whatever object sits there.
- Which handler set `setupConn` attached to a link is remembered per handle
  (`Node.setups`). A rejected link has no data, close or error handler.
- The source reads two clocks: `Date.now()` and the synchronised
  `util.now()` (`Protocol.Clock`). `connectTo` stamps `created` with the
  synchronised clock; the open handler, `handleData`, `maintenance` and the
  heartbeat table use the local one; presence staleness uses the synchronised one.
- The `NET_PARAMS` constants come from a file that is not part of this model,
  so they are parameters (`Protocol.Params`).
- `setInterval` timers are explicit (`World.intervals`), so that "at most one
  main loop and one pulse" is a statement about the state (`World.TimersConsistent`).

The code does not keep the registry within its capacity: `connectTo` inserts
its placeholder before any check, a rejected outbound placeholder keeps its
slot after its own link has opened and closed (until maintenance prunes it,
a later `connectTo` for that id replaces it, or an admitted link from that
peer overwrites it), and the PEER_EX follow-up uses the normal-node bound
even on hubs. The model does the same. `P2PProps.PlaceholderOverfills` and
`P2PProps.RejectedPlaceholderLingers` state the overshoot.

## Model

| member | source | states |
|---|---|---|
| Basics.PrefixedDecimalInjective | modules/p2p.js:171-172 | hub ids built as prefix plus decimal index are distinct for distinct indices |
| Registry.Put | modules/p2p.js:66 | `conns[id] = c` maps `id` to `c`; an existing key keeps its place, a new key goes last and the size grows by one |
| Registry.Remove | modules/p2p.js:114-118 | `delete conns[id]` drops exactly that key and the other keys keep their relative order; deleting an absent key leaves the registry as it was |
| Registry.RemoveIdempotent | modules/p2p.js:114-120 | deleting twice is deleting once |
| Registry.OpenKeys | modules/mqtt.js:120 | lists exactly the keys whose link is open, each once and in key order, so its length is the number of open links |
| P2P.SetupConn | modules/p2p.js:72-82 | the rejection path is taken exactly when the registry size is at least MAX_PEERS_HUB on a hub, MAX_PEERS_NORMAL otherwise |
| P2P.ConnectTo | modules/p2p.js:59-69 | no change and no dial for an empty id, our own id, an open entry, or no usable transport; otherwise one dial and a non-open placeholder with `created` = now overwriting any non-open entry; open links, other keys and the handlers of other link objects untouched; the admission decision sees the placeholder |
| P2P.OnConnection | modules/p2p.js:29 | an inbound link is set up with a fresh identity and the admission decision, without touching the registry, the transport or the handlers of other link objects |
| P2P.OnOpen | modules/p2p.js:74-110 | rejected or unknown: the registry is unchanged unless it holds this very link object, whose entry only turns open; exactly one PEER_EX of the first at most 10 keys, then a close after 500 ms; admitted: stored under its peer with `created` = `lastPong` = now, HELLO{name, id} before the delayed PEER_EX listing the keys after insertion plus our id, then the history query, retry and redraw |
| P2P.OnRecentLoaded | modules/p2p.js:100-105 | 500 ms later, ASK_PUB with the newest stored message's time, or 0 when there is none |
| P2P.OnGone | modules/p2p.js:114-120 | close or error of an admitted link removes only `conn.peer`, the other keys keeping their order; a rejected link has no such handler: the registry is unchanged unless it holds this very link object, whose entry only turns closed |
| P2P.FollowPeerEx | modules/p2p.js:137-147 | dials only listed ids that are non-empty, not ours and not in the registry; nothing at all once the registry has MAX_PEERS_NORMAL entries (on hubs too); never pushes a registry below that bound past it; existing entries are untouched |
| P2P.FollowPeerExDialsOnce | modules/p2p.js:137-147 | one dial per new entry, no peer dialled twice, and every dialled peer ends holding the non-open placeholder of its own dial |
| P2P.FollowPeerExCount | modules/p2p.js:137-147 | the follow-up dials exactly as often as the registry grows |
| P2P.FollowPeerExDistinct | modules/p2p.js:137-147 | the follow-up only dials, and never the same peer twice: each dial's placeholder blocks a repeat |
| P2P.FollowPeerExPlaceholders | modules/p2p.js:137-147 | every peer the follow-up dials ends holding the non-open placeholder of that very dial |
| P2P.FollowPeerExCovers | modules/p2p.js:137-147 | afterwards every listed id other than the empty one and ours has an entry, unless the registry reached MAX_PEERS_NORMAL |
| P2P.HandleData | modules/p2p.js:123-167 | every message, typed or not, refreshes `lastPong`; an untyped one, PONG or an unknown tag does nothing else; PING yields exactly one PONG; HELLO labels the link and introduces the sender; PEER_EX is exactly the list follow-up on the refreshed node; ASK_PUB asks the store for `ts || 0`; REP_PUB hands on each item in order; a chat message is handed on with its sender; apart from PEER_EX and HELLO's label, nothing but the stamp changes |
| P2P.HandleDataDials | modules/p2p.js:137-147 | only a PEER_EX makes the data handler dial, and only listed ids that are non-empty, not ours and not in the registry |
| P2P.OnData | modules/p2p.js:112 | an admitted link's data is exactly `handleData`; any other link's data does nothing |
| P2P.OnSendTimer | modules/p2p.js:97-104 | a delayed send goes out exactly when the link object is still open, and sends only that message on that link |
| P2P.OnPublicLoaded | modules/p2p.js:151-153 | answers REP_PUB exactly when the store returned something |
| P2P.DeliverAll | modules/p2p.js:156-160 | each item of a REP_PUB is handed on, in order, one per item |
| P2P.ConnectEach | modules/p2p.js:171-176 | repeated `connectTo` keeps the node's identity and every link's open state, and touches only the listed keys |
| P2P.Unopened | modules/p2p.js:170-177 | lists exactly the hub ids `HUB_PREFIX + i`, `i < HUB_COUNT`, that lack an open entry |
| P2P.PatrolHubs | modules/p2p.js:170-177 | patrol keeps the node's identity and which links are open |
| P2P.PruneKeeps | modules/p2p.js:184-196 | pruning keeps exactly the entries that are not doomed, each unchanged |
| P2P.PruneCloses | modules/p2p.js:189-195 | pruning closes exactly the silent non-hub open links, each through its own object |
| P2P.PruneKeepsOrder | modules/p2p.js:184-196 | pruning only deletes, so the surviving keys keep their relative order |
| P2P.PruneNothingDoomed | modules/p2p.js:184-196 | with nothing doomed, pruning changes nothing and closes nothing |
| P2P.GossipTargets | modules/p2p.js:199-208 | gossip only sends, and only to open links through their own object |
| P2P.GossipPairs | modules/p2p.js:202-207 | gossip is a run of pairs: a PING, then the packet, on the same link |
| P2P.PairsCarryPingOrPacket | modules/p2p.js:204-205 | every gossip message is a PING or the packet |
| P2P.GossipCovers | modules/p2p.js:202-207 | every open link gets both the PING and the packet |
| P2P.GossipSendsOnly | modules/p2p.js:199-208 | no gossip when the registry is empty; otherwise sends only to open links, only PING or the packet, and to every open link both |
| P2P.Maintenance | modules/p2p.js:180-211 | a non-open entry goes iff now - created > CONN_TIMEOUT; an open entry with a pong stamp older than PING_TIMEOUT goes unless its id is hub-prefixed; all others stay unchanged and in their order; it only closes, sends and redraws, the redraw last |
| P2P.MaintenanceCloses | modules/p2p.js:189-195 | maintenance closes exactly the silent non-hub open links, each through its own object |
| P2P.MaintenanceGossips | modules/p2p.js:199-208 | maintenance sends only to surviving open links, only PING or a PEER_EX of the first GOSSIP_SIZE surviving keys, and every open survivor gets both |
| P2P.Classify | modules/p2p.js:31-52 | the error taxonomy: peer-unavailable, browser-incompatible, disconnected, the four network types, anything else |
| P2P.OnPeerError | modules/p2p.js:31-52 | peer-unavailable and unknown types do nothing; incompatibility alerts; disconnection reconnects and notes it only once per episode; network types restart in 5 s |
| P2P.Start | modules/p2p.js:10-15 | creates a transport handle only when none is held or it is destroyed |
| P2P.Lapse | modules/p2p.js:11 | PeerJS dropping its session or handle leaves the transport unusable without touching any link; only a destroyed handle lets `start` build a new one |
| P2P.OnPeerOpen | modules/p2p.js:17-27 | adopts the granted id, marks the transport usable, re-arms the reconnect notice, redraws, then does exactly what `patrolHubs` does on that node |
| P2PProps.ConnectEachDials | modules/p2p.js:59-69 | `connectTo` over a list dials exactly the ids that pass its guard on the starting node, in order |
| P2PProps.PatrolIsConnectEach | modules/p2p.js:170-177 | patrol equals `connectTo` over the hub ids that lacked an open link when it began |
| P2PProps.PatrolHubsCalls | modules/p2p.js:170-177 | patrol calls `connectTo` exactly for the unopened hub ids and dials those that pass the guard; without a usable transport it does nothing |
| P2PProps.ConnectEachOnlyDials | modules/p2p.js:59-69 | `connectTo` over a list asks only for dials to ids of that list |
| P2PProps.PatrolOnlyDialsHubs | modules/p2p.js:170-177 | patrol asks for nothing but dials to well-known hub ids |
| P2PProps.PatrolAllOpenIsNoop | modules/p2p.js:170-177 | with every hub link open, patrol does nothing |
| P2PProps.UnopenedDistinct | modules/p2p.js:171-172 | the unopened hub ids are pairwise distinct |
| P2PProps.PatrolDialsDistinct | modules/p2p.js:170-177 | one patrol never dials the same hub twice |
| P2PProps.PlaceholderOverfills | modules/p2p.js:64-75 | a full node dialling a new id ends one entry over its bound, and that link is set up on the rejection path |
| P2PProps.RejectedPlaceholderLingers | modules/p2p.js:59-82 | a rejected outbound placeholder is open while its link is, so `connectTo` skips it; after the link's open and close it stays, closed, with the dial's creation time, and the next `connectTo` for that id replaces it with a fresh placeholder |
| P2PProps.FullNodeTurnsAwayInbound | modules/p2p.js:74-81 | an inbound link at a full node leaves the keys as they were and gets one PEER_EX listing its first 10 keys (all of them when it has fewer), then a close in 500 ms |
| P2PProps.GoneTwiceIsGoneOnce | modules/p2p.js:114-120 | a second close or error for the same link changes nothing more |
| P2PProps.MaintenanceSettles | modules/p2p.js:184-196 | a second maintenance pass at the same instant prunes nothing more |
| P2PProps.OpenHubLinksSurvive | modules/p2p.js:189-191 | an open link to a hub-prefixed id survives maintenance however silent |
| P2PProps.HubIdsAreHubPrefixed | modules/p2p.js:172 | every well-known hub id carries the hub prefix, so all of them are exempt from eviction |
| P2PProps.ReconnectNoticeOnce | modules/p2p.js:17-46 | a second disconnection only reconnects; the next transport open re-arms the one-time notice |
| World.OneLoopTimer | app.js:56-68 | in a consistent world at most one main-loop timer is alive |
| World.OnePulseTimer | modules/mqtt.js:80-81 | in a consistent world at most one pulse timer is alive |
| Mqtt.RouteFor | modules/mqtt.js:19-31 | with no failures: the broker, its port and path, timeout 5, not proxied; after any failure: the proxy host, port 443, path `/https://broker:port/path`, timeout 10, proxied |
| Mqtt.ProxyPathKeepsPort | modules/mqtt.js:29 | the proxy path still names the direct port: same broker and path with different ports give different proxy paths |
| Mqtt.StartPresence | modules/mqtt.js:12-56 | without the client library only a retry in 3 s; otherwise a pending client connecting along the route the failure count selects |
| Mqtt.OwnPresence | modules/mqtt.js:131-146 | a hub announces a pulse with its id, hub index and time; any other node a plain presence with its id and time |
| Mqtt.SendPresence | modules/mqtt.js:128-151 | publishes the node's own announcement exactly when the client is connected |
| Mqtt.ResignOrPatrol | modules/mqtt.js:66-74 | resigns exactly when a hub got through directly, leaving the node as it was; otherwise it is exactly `patrolHubs`, which dials only hubs |
| Mqtt.ReplacePulse | modules/mqtt.js:80-81 | stops exactly the pulse timer held before, starts one new pulse of 10 s when proxied and 4 s when direct, names it, and leaves every other timer alive |
| Mqtt.ReplacePulseKeepsTimers | modules/mqtt.js:80-81 | replacing the pulse keeps each timer variable naming exactly the live timer of its kind |
| Mqtt.OnConnect | modules/mqtt.js:58-82 | online with the failure count reset, subscribed first, resigning hubs keep their node untouched, other nodes end as `patrolHubs` leaves them, the new pulse timer is held and started last |
| Mqtt.OnConnectKeepsTimers | modules/mqtt.js:80-81 | after the connect handler the new pulse is the only pulse alive and the timer invariant still holds |
| Mqtt.OnConnectEffects | modules/mqtt.js:62-81 | the connect handler resigns iff a hub got through directly and otherwise dials exactly what a patrol dials; it publishes the node's announcement exactly once and stops exactly the pulse timer it held |
| Mqtt.OnConnectDialsHubs | modules/mqtt.js:66-74 | the connect handler dials only well-known hubs, and nothing when it resigns |
| Mqtt.OnFail | modules/mqtt.js:84-92 | status failed, failure count up by exactly one, retry after RETRY_DELAY, pulse timer left as it was |
| Mqtt.OnLost | modules/mqtt.js:94-99 | status lost, failure count up by exactly one, retry after RETRY_DELAY, pulse timer left as it was |
| Mqtt.SilentAfterDrop | modules/mqtt.js:128-129 | after a failure or loss the surviving pulse timer publishes nothing |
| Mqtt.ReplayCountsStreak | modules/mqtt.js:58-99 | over any run of outcomes the failure count equals the failures and losses since the last success |
| Mqtt.RouteFollowsLastOutcome | modules/mqtt.js:20-31 | the next start goes through the proxy exactly when the latest attempt failed or was lost |
| Mqtt.OnMessage | modules/mqtt.js:101-126 | an unparsable or stale payload changes nothing; a fresh pulse stamps the heartbeat of its hub index; a dial happens only for an unknown sender (a hub while fewer than 5 entries exist, another node while fewer than 6 links are open) and does happen when `connectTo` would accept it; an invited sender gets exactly that `connectTo`, node and effects |
| Mqtt.OwnPresenceIgnored | modules/mqtt.js:117 | a node's own plain announcement heard back changes nothing |
| Mqtt.OwnPulseOnlyBeats | modules/mqtt.js:107-113 | a hub's own pulse heard back only refreshes its heartbeat |
| Mqtt.PulseHeardElsewhere | modules/mqtt.js:107-113 | a fresh hub pulse records its beat and dials the hub iff it has no entry and fewer than 5 entries exist |
| Mqtt.MissingTimeIsFresh | modules/mqtt.js:104 | a presence without a time is never discarded as stale |
| App.Correct | app.js:91-95 | an online non-hub patrols, an offline non-hub asks for any hub, a hub does neither |
| App.Loop | app.js:84-96 | a hidden page's loop does nothing; a visible tick leaves the node as maintenance left it, and an online non-hub as `patrolHubs` then leaves it; the loop never touches timers or the presence session |
| App.LoopOrder | app.js:88-95 | maintenance's effects first, then exactly one retry of pending messages, then exactly the topology correction's effects, which ask for any hub iff a non-hub is offline |
| App.LoopByRole | app.js:88-95 | a visible tick emits maintenance and the retry, then nothing more on a hub, a request for any hub on an offline non-hub, and exactly the patrol's dials on an online one |
| App.OnInitialCheck | app.js:34-42 | acts only for a non-hub with an empty registry: exactly `patrolHubs` (node and effects) when online, any hub otherwise |
| App.InitialCheckDialsEveryHub | app.js:34-38 | an online non-hub with an empty registry dials every well-known hub other than itself |
| App.Suspend | app.js:56-59 | hiding stops the held main-loop timer and forgets it |
| App.ResumeLoop | app.js:65-68 | showing starts a main loop only if none is held |
| App.ResumePresence | app.js:74-76 | showing restarts the presence client only if it is absent or not connected |
| App.OnVisibility | app.js:46-82 | hiding leaves no loop timer; showing leaves exactly one, the held one if any; the timer invariant holds |
| App.VisibilityEffects | app.js:47-80 | a stop exactly when hiding with a loop held, a start exactly when showing without one, a transport restart and presence reconnect when needed, the clock resynchronised last |
| App.Init | app.js:23-42 | starts the transport when no live handle is held, connects the presence client directly, starts the main loop with the timer invariant established, and schedules the 2 s check |
| App.StepKeepsTimers | app.js:46-82 | every handler keeps each timer variable naming exactly the live timer of its kind |
| App.RunKeepsTimers | app.js:46-82 | any sequence of events keeps the timer invariant |
| App.AtMostOneLoopAndPulse | app.js:28-68 | from start-up on, whatever happens, at most one main loop and at most one pulse run |
| App.ToggleLoopFollowsLastChange | app.js:48-68 | after any hide/show sequence a main loop is held exactly when the last change showed the page |

## Left out

- PeerJS and Paho themselves (`new Peer`, `peer.connect`, `reconnect`,
  `client.connect`, `subscribe`, `send`): their calls are effects, their
  callbacks are events. The transport's state changes only through its
  events. PeerJS dropping its signalling session or destroying its handle is
  the event `App.TransportLapsed`; when it happens relative to the error
  events is not modelled.
- Real time: timers are recorded as effects with their delay, and each
  firing is an event of `App.Event`: the loop and the pulse, the initial
  check, the restart timers, and the per-link send and close timers. Which
  timer fires when is not modelled. There is no concurrency in the source.
- The link object's own `open` flag at a delayed send is an input of the
  firing event, because the registry may no longer hold that object.
- The message store and message protocol (`db.getRecent`, `db.getPublicAfter`,
  `protocol.processIncoming`, `protocol.retryPending`): calls are effects.
  Their answers arrive as the events `App.RecentLoaded` and `App.PublicLoaded`,
  handled by `P2P.OnRecentLoaded` and `P2P.OnPublicLoaded`.
- UI rendering, logging, `alert`, `util.syncTime`, `localStorage`,
  `loadHistory` and the awaited preparations at the head of `init`: presentation
  and I/O; only the effects that mark their place are kept.
- `JSON.parse`/`JSON.stringify`: messages are datatypes, a payload that fails
  to parse is `None`, and a missing field is `None`. For a presence `ts`, the
  staleness test subtracts it from the clock, which coerces it to a number.
  `None` stands for every value whose coercion is NaN (absent, a non-numeric
  string, an object): the difference is NaN, so such a presence is never
  stale. `Some(v)` stands for every value that coerces to the number `v`:
  `null`, `""` and `false` become 0 and are stale, and `"1700000000000"` or
  `[5]` count as those numbers. Fractional times are not modelled.
- The random suffix of the presence client id.
- `hub.resign` and `hub.connectToAnyHub`: the hub module is not part of this
  model; they are effects.
- Mqtt.OnConnect: assumes `hub.resign()` leaves `state.isHub` and the hub
  index as they were until the handler finishes, so the announcement that
  follows is still a hub pulse. The hub module is not part of this model, so
  what it changes when resigning is unknown here.
- `p2p.stop`: the visibility handler calls it only if it exists, and the
  transport manager never defines it, so hiding the page tears nothing down.
- The JavaScript rule that integer-like object keys are listed before other
  keys in ascending order: peer ids are assumed not to look like array indices.
- The presence port is taken to print as its canonical decimal form in the
  proxy path; a configuration string such as "0443" is not modelled.
- A presence without an id would touch the key "undefined" in JavaScript; the
  model treats it as an absent key, which has the same outcome (no dial).
- A `client.connect` that throws synchronously calls `onFail` at once; the
  model treats it as a later `BrokerFailed` event, with the same state change.
- Callbacks of a superseded presence client are taken to concern the current one.
- P2P.MaintenanceGossips: says every open link gets both a PING and the
  packet, not that the PING comes first; that order is stated for the gossip
  fold by P2P.GossipPairs.

=== FILE: app.dfy ===
/** The application shell of `app.js`: start-up, the main loop with its
    topology correction, the two-second initial check, and the visibility
    handler that suspends and resumes the main loop. The last part drives
    the whole process through an arbitrary sequence of events to show that the
    page never runs two main loops or two presence pulses. */
module App {
  import opened Basics
  import opened Registry
  import opened Protocol
  import opened P2P
  import opened World
  import Mqtt
  import P2PProps

  /** The topology correction shared by the loop and the initial check:
      an online non-hub patrols the hubs, an offline one asks for any hub,
      a hub does neither. */
  function Correct(p: Params, w: World, t: Clock): (r: WorldStep)
    ensures r.world == w.(node := r.world.node)
    ensures w.node.isHub ==> r == WorldStep(w, [])
    ensures !w.node.isHub && w.session.status != Online ==> r == WorldStep(w, [ConnectToAnyHub])
    ensures !w.node.isHub && w.session.status == Online ==>
      r.world.node == PatrolHubs(p, w.node, t).node && r.fx == PatrolHubs(p, w.node, t).fx
    ensures ConnectToAnyHub in r.fx <==> !w.node.isHub && w.session.status != Online
    ensures forall e :: e in r.fx ==>
      e == ConnectToAnyHub || (e.Dial? && exists i :: 0 <= i < p.hubCount && e.link.peer == HubId(p, i))
  {
    P2PProps.PatrolOnlyDialsHubs(p, w.node, t);
    if w.node.isHub then WorldStep(w, [])
    else if w.session.status == Online then
      var s := PatrolHubs(p, w.node, t);
      WorldStep(w.(node := s.node), s.fx)
    else WorldStep(w, [ConnectToAnyHub])
  }

  /** `loop()`: nothing while hidden; otherwise maintenance, then the retry of
      pending messages, then the topology correction. */
  function Loop(p: Params, w: World, t: Clock): (r: WorldStep)
    ensures w.hidden ==> r == WorldStep(w, [])
    ensures r.world == w.(node := r.world.node)
    ensures !w.hidden && (w.node.isHub || w.session.status != Online) ==>
      r.world.node == Maintenance(p, w.node, t).node
    ensures !w.hidden && !w.node.isHub && w.session.status == Online ==>
      r.world.node == PatrolHubs(p, Maintenance(p, w.node, t).node, t).node
  {
    if w.hidden then WorldStep(w, [])
    else
      var m := Maintenance(p, w.node, t);
      var c := Correct(p, w.(node := m.node), t);
      WorldStep(c.world, m.fx + [RetryPending] + c.fx)
  }

  /** The order of a visible loop tick: first everything maintenance asks for,
      then one retry of pending messages, then only the topology correction,
      which asks for any hub exactly when a non-hub is offline. */
  lemma LoopOrder(p: Params, w: World, t: Clock)
    requires !w.hidden
    ensures var m := Maintenance(p, w.node, t).fx;
      var fx := Loop(p, w, t).fx;
      && |fx| > |m|
      && fx[..|m|] == m
      && fx[|m|] == RetryPending
      && RetryPending !in m
      && (forall e :: e in fx[|m| + 1..] ==>
            e == ConnectToAnyHub || (e.Dial? && exists i :: 0 <= i < p.hubCount && e.link.peer == HubId(p, i)))
      && (ConnectToAnyHub in fx <==> !w.node.isHub && w.session.status != Online)
      && fx[|m| + 1..] == Correct(p, w.(node := Maintenance(p, w.node, t).node), t).fx
  {
    var m := Maintenance(p, w.node, t);
    var c := Correct(p, w.(node := m.node), t);
    assert Loop(p, w, t).fx == m.fx + [RetryPending] + c.fx;
    ThreeParts(m.fx, c.fx);
  }

  /** A visible tick by role: a hub only maintains and retries, an offline
      non-hub then asks for any hub, an online one then patrols the hubs on
      the registry maintenance left. */
  lemma LoopByRole(p: Params, w: World, t: Clock)
    requires !w.hidden
    ensures var m := Maintenance(p, w.node, t);
      var fx := Loop(p, w, t).fx;
      && (w.node.isHub ==> fx == m.fx + [RetryPending])
      && (!w.node.isHub && w.session.status != Online ==> fx == m.fx + [RetryPending, ConnectToAnyHub])
      && (!w.node.isHub && w.session.status == Online ==> fx == m.fx + [RetryPending] + PatrolHubs(p, m.node, t).fx)
  {
    var m := Maintenance(p, w.node, t);
    var c := Correct(p, w.(node := m.node), t);
    assert Loop(p, w, t).fx == m.fx + [RetryPending] + c.fx;
  }

  lemma ThreeParts(m: seq<Effect>, c: seq<Effect>)
    requires forall e :: e in m ==> e.Send? || e.CloseLink? || e == RenderList
    ensures var fx := m + [RetryPending] + c;
      && fx[..|m|] == m && fx[|m|] == RetryPending && fx[|m| + 1..] == c
      && RetryPending !in m
      && (ConnectToAnyHub in fx <==> ConnectToAnyHub in c)
  {
    var fx := m + [RetryPending] + c;
    assert fx[..|m|] == m;
    assert fx[|m| + 1..] == c;
  }

  /** The two-second check after start-up: a non-hub with an empty registry
      corrects its topology; anyone else does nothing. */
  function OnInitialCheck(p: Params, w: World, t: Clock): (r: WorldStep)
    ensures w.node.isHub || Size(w.node.conns) >= 1 ==> r == WorldStep(w, [])
    ensures !w.node.isHub && Size(w.node.conns) == 0 && w.session.status != Online ==> r == WorldStep(w, [ConnectToAnyHub])
    ensures !w.node.isHub && Size(w.node.conns) == 0 && w.session.status == Online ==>
      r.world.node == PatrolHubs(p, w.node, t).node && r.fx == PatrolHubs(p, w.node, t).fx
    ensures r.world == w.(node := r.world.node)
  {
    if !w.node.isHub && Size(w.node.conns) < 1 then Correct(p, w, t) else WorldStep(w, [])
  }

  /** An online non-hub that starts with an empty registry dials every
      well-known hub that is not itself. */
  lemma InitialCheckDialsEveryHub(p: Params, w: World, t: Clock, i: nat)
    requires !w.node.isHub && Size(w.node.conns) == 0 && w.session.status == Online
    requires w.node.transport == Up && i < p.hubCount && HubId(p, i) != w.node.myId
    ensures HubId(p, i) in Dialed(OnInitialCheck(p, w, t).fx)
  {
    P2PProps.PatrolHubsCalls(p, w.node, t);
  }

  /** Going to the background: stop and forget the main loop. The transport
      teardown the handler attempts is never defined, so nothing else stops. */
  function Suspend(w: World): (r: WorldStep)
    ensures r.world == w.(loopTimer := None, intervals := r.world.intervals)
    ensures w.loopTimer.Some? ==> r.world.intervals == w.intervals - {w.loopTimer.value} && r.fx == [StopInterval(w.loopTimer.value)]
    ensures w.loopTimer.None? ==> r == WorldStep(w, [])
    ensures TimersConsistent(w) ==> TimersConsistent(r.world)
  {
    if w.loopTimer.Some? then
      var c := ClearInterval(w, w.loopTimer.value);
      WorldStep(c.world.(loopTimer := None), c.fx)
    else WorldStep(w, [])
  }

  /** Coming back: a main loop only if none is held. */
  function ResumeLoop(p: Params, w: World): (r: WorldStep)
    ensures r.world.loopTimer.Some?
    ensures w.loopTimer.Some? ==> r == WorldStep(w, [])
    ensures w.loopTimer.None? ==> r.fx == [StartInterval(w.nextTimer, p.loopInterval, LoopTick)]
    ensures w.loopTimer.None? ==>
      r.world == w.(loopTimer := Some(w.nextTimer), intervals := w.intervals[w.nextTimer := LoopTick], nextTimer := w.nextTimer + 1)
    ensures TimersConsistent(w) ==> TimersConsistent(r.world)
  {
    if w.loopTimer.None? then
      var s := SetInterval(w, p.loopInterval, LoopTick);
      WorldStep(s.world.(loopTimer := Some(w.nextTimer)), s.fx)
    else WorldStep(w, [])
  }

  /** Coming back: the presence client is restarted unless it is connected. */
  function ResumePresence(cfg: BrokerConfig, w: World, libraryLoaded: bool): (r: WorldStep)
    ensures r.world == w.(session := r.world.session)
    ensures r.world.session.pulseTimer == w.session.pulseTimer
    ensures w.session.client == Connected ==> r == WorldStep(w, [])
    ensures w.session.client != Connected ==> r == Mqtt.StartPresence(cfg, w, libraryLoaded)
  {
    if w.session.client != Connected then Mqtt.StartPresence(cfg, w, libraryLoaded) else WorldStep(w, [])
  }

  /** The `visibilitychange` handler. */
  function OnVisibility(p: Params, cfg: BrokerConfig, w: World, hidden: bool, libraryLoaded: bool): (r: WorldStep)
    ensures r.world.hidden == hidden && r.world.node == w.node && r.world.heartbeats == w.heartbeats
    ensures hidden ==> r.world.loopTimer == None && r.world.session == w.session
    ensures !hidden ==> r.world.loopTimer.Some?
    ensures !hidden && w.loopTimer.Some? ==> r.world.loopTimer == w.loopTimer && r.world.intervals == w.intervals
    ensures !hidden && w.session.client == Connected ==> r.world.session == w.session
    ensures TimersConsistent(w) ==> TimersConsistent(r.world)
  {
    var w1 := w.(hidden := hidden);
    if hidden then Suspend(w1)
    else
      var loop := ResumeLoop(p, w1);
      var presence := ResumePresence(cfg, loop.world, libraryLoaded);
      WorldStep(presence.world, loop.fx + Start(w.node).fx + presence.fx + [SyncTime])
  }

  /** What the handler asks for: a loop timer stopped exactly when hiding with
      one held, a new one started exactly when showing without one, the
      transport restarted on showing when it has no live handle, the presence
      client reconnected on showing when it is not connected, and the clock
      resynchronised last. */
  lemma VisibilityEffects(p: Params, cfg: BrokerConfig, w: World, hidden: bool, libraryLoaded: bool)
    ensures var fx := OnVisibility(p, cfg, w, hidden, libraryLoaded).fx;
      && (forall id: TimerId :: StopInterval(id) in fx <==> hidden && w.loopTimer == Some(id))
      && (StartInterval(w.nextTimer, p.loopInterval, LoopTick) in fx <==> !hidden && w.loopTimer.None?)
      && (CreatePeer(w.node.myId) in fx <==> !hidden && (w.node.transport == NoPeer || w.node.transport == Destroyed))
      && (!hidden && w.session.client != Connected && libraryLoaded ==>
            ConnectBroker(Mqtt.RouteFor(cfg, w.session.failCount)) in fx)
      && (!hidden ==> |fx| > 0 && fx[|fx| - 1] == SyncTime)
  {
    if !hidden {
      var w1 := w.(hidden := hidden);
      var loop := ResumeLoop(p, w1);
      var presence := ResumePresence(cfg, loop.world, libraryLoaded);
      var fx := loop.fx + Start(w.node).fx + presence.fx + [SyncTime];
      assert OnVisibility(p, cfg, w, hidden, libraryLoaded).fx == fx;
      assert forall e :: e in presence.fx ==> e.ConnectBroker? || e.After?;
    }
  }

  /** `app.init()` after its awaited preparations: start the transport and the
      presence client, start the main loop, and schedule the initial check. */
  function Init(p: Params, cfg: BrokerConfig, node: Node, hidden: bool, libraryLoaded: bool): (r: WorldStep)
    ensures r.world.node == node && r.world.hidden == hidden
    ensures r.world.loopTimer.Some?
    ensures TimersConsistent(r.world)
    ensures CreatePeer(node.myId) in r.fx <==> node.transport == NoPeer || node.transport == Destroyed
    ensures libraryLoaded ==> ConnectBroker(Mqtt.RouteFor(cfg, 0)) in r.fx && !Mqtt.RouteFor(cfg, 0).isProxy
    ensures |r.fx| > 0 && r.fx[|r.fx| - 1] == After(2000, InitialCheck)
  {
    var w0 := Fresh(node, hidden);
    var start := Start(node);
    var presence := Mqtt.StartPresence(cfg, w0, libraryLoaded);
    var s := SetInterval(presence.world, p.loopInterval, LoopTick);
    var w1 := s.world.(loopTimer := Some(presence.world.nextTimer));
    WorldStep(w1, start.fx + presence.fx + s.fx + [After(2000, InitialCheck)])
  }

  // ---------------------------------------------------------------------------
  // the process as a whole

  /** Everything that can happen to the page, from outside or from its timers. */
  datatype Event =
    | Visibility(hidden: bool, libraryLoaded: bool)
    | LoopFired
    | InitialCheckFired
    | PresenceRestart(libraryLoaded: bool)
    | BrokerConnected(isProxy: bool)
    | BrokerFailed
    | BrokerLost
    | PresenceArrived(d: Option<Presence>)
    | PulseFired
    | Transport(ev: TransportEvent)

  /** What the PeerJS side delivers: the transport's own events, a restart
      timer firing, the events of individual links, the firing of the
      per-link timers, and the message store's answers to a link's queries.
      A `conn.close()` timer only asks the library to close; the link's
      `close` event follows as `LinkGone`. */
  datatype TransportEvent =
    | TransportRestart
    | TransportOpened(id: PeerId)
    | TransportError(errorType: string)
    | TransportLapsed(destroyed: bool)
    | Inbound
    | LinkOpened(link: LinkRef)
    | LinkData(link: LinkRef, msg: LinkMsg)
    | LinkGone(link: LinkRef)
    | SendTimerFired(link: LinkRef, msg: LinkMsg, linkOpen: bool)
    | CloseTimerFired(link: LinkRef)
    | RecentLoaded(link: LinkRef, recent: seq<int>)
    | PublicLoaded(link: LinkRef, items: seq<Payload>)

  datatype Timed = Timed(event: Event, at: Clock)

  function WithNode(w: World, s: NodeStep): (r: WorldStep)
    ensures r.world == w.(node := s.node)
  {
    WorldStep(w.(node := s.node), s.fx)
  }

  /** Dispatches one event to its handler. */
  function Step(p: Params, cfg: BrokerConfig, w: World, e: Event, t: Clock): WorldStep {
    match e
    case Visibility(h, lib) => OnVisibility(p, cfg, w, h, lib)
    case LoopFired => Loop(p, w, t)
    case InitialCheckFired => OnInitialCheck(p, w, t)
    case PresenceRestart(lib) => Mqtt.StartPresence(cfg, w, lib)
    case BrokerConnected(x) => Mqtt.OnConnect(p, cfg, w, x, t)
    case BrokerFailed => Mqtt.OnFail(p, w)
    case BrokerLost => Mqtt.OnLost(p, w)
    case PresenceArrived(d) => Mqtt.OnMessage(p, w, d, t)
    case PulseFired => WorldStep(w, Mqtt.SendPresence(w, t))
    case Transport(ev) => WithNode(w, OnTransport(p, w.node, ev, t))
  }

  /** Dispatches a PeerJS event to the transport manager; these touch only the node. */
  function OnTransport(p: Params, n: Node, ev: TransportEvent, t: Clock): NodeStep {
    match ev
    case TransportRestart => Start(n)
    case TransportOpened(id) => OnPeerOpen(p, n, id, t)
    case TransportError(ty) => OnPeerError(n, ty)
    case TransportLapsed(destroyed) => Lapse(n, destroyed)
    case Inbound => OnConnection(p, n)
    case LinkOpened(link) => OnOpen(n, link, t)
    case LinkData(link, msg) => OnData(p, n, link, msg, t)
    case LinkGone(link) => OnGone(n, link)
    case SendTimerFired(link, msg, linkOpen) => NodeStep(n, OnSendTimer(link, msg, linkOpen))
    case CloseTimerFired(link) => NodeStep(n, [CloseLink(link)])
    case RecentLoaded(link, recent) => NodeStep(n, OnRecentLoaded(link, recent))
    case PublicLoaded(link, items) => NodeStep(n, OnPublicLoaded(link, items))
  }

  /** The world after a sequence of timed events. */
  function Run(p: Params, cfg: BrokerConfig, w: World, evs: seq<Timed>): World
    decreases |evs|
  {
    if |evs| == 0 then w
    else Run(p, cfg, Step(p, cfg, w, evs[0].event, evs[0].at).world, evs[1..])
  }

  /** Every handler keeps the timer variables in step with the live timers. */
  lemma StepKeepsTimers(p: Params, cfg: BrokerConfig, w: World, e: Event, t: Clock)
    requires TimersConsistent(w)
    ensures TimersConsistent(Step(p, cfg, w, e, t).world)
  {
    var w' := Step(p, cfg, w, e, t).world;
    match e {
      case Visibility(h, lib) =>
      case BrokerConnected(x) => Mqtt.OnConnectKeepsTimers(p, cfg, w, x, t);
      case _ => TimersUntouched(w, w');
    }
  }

  lemma {:induction false} RunKeepsTimers(p: Params, cfg: BrokerConfig, w: World, evs: seq<Timed>)
    requires TimersConsistent(w)
    ensures TimersConsistent(Run(p, cfg, w, evs))
    decreases |evs|
  {
    if |evs| > 0 {
      StepKeepsTimers(p, cfg, w, evs[0].event, evs[0].at);
      RunKeepsTimers(p, cfg, Step(p, cfg, w, evs[0].event, evs[0].at).world, evs[1..]);
    }
  }

  /** From start-up on, whatever happens, the page runs at most one main loop
      and at most one presence pulse. */
  lemma AtMostOneLoopAndPulse(p: Params, cfg: BrokerConfig, node: Node, hidden: bool, libraryLoaded: bool,
                              evs: seq<Timed>, a: TimerId, b: TimerId)
    ensures
      var w := Run(p, cfg, Init(p, cfg, node, hidden, libraryLoaded).world, evs);
      && (a in w.intervals && b in w.intervals && w.intervals[a] == LoopTick && w.intervals[b] == LoopTick ==> a == b)
      && (a in w.intervals && b in w.intervals && w.intervals[a] == PulseTick && w.intervals[b] == PulseTick ==> a == b)
  {
    var w := Run(p, cfg, Init(p, cfg, node, hidden, libraryLoaded).world, evs);
    RunKeepsTimers(p, cfg, Init(p, cfg, node, hidden, libraryLoaded).world, evs);
    if a in w.intervals && b in w.intervals && w.intervals[a] == LoopTick && w.intervals[b] == LoopTick {
      OneLoopTimer(w, a, b);
    }
    if a in w.intervals && b in w.intervals && w.intervals[a] == PulseTick && w.intervals[b] == PulseTick {
      OnePulseTimer(w, a, b);
    }
  }

  /** Visibility alone: after any hide/show sequence the loop runs exactly when
      the last change showed the page (or, with no change yet, as at start-up). */
  function Toggle(p: Params, cfg: BrokerConfig, w: World, hs: seq<bool>): World
    decreases |hs|
  {
    if |hs| == 0 then w
    else Toggle(p, cfg, OnVisibility(p, cfg, w, hs[0], true).world, hs[1..])
  }

  lemma {:induction false} ToggleLoopFollowsLastChange(p: Params, cfg: BrokerConfig, w: World, hs: seq<bool>)
    requires TimersConsistent(w)
    ensures var w' := Toggle(p, cfg, w, hs);
      && TimersConsistent(w')
      && (|hs| > 0 ==> (w'.loopTimer.Some? <==> !hs[|hs| - 1]))
      && (|hs| == 0 ==> w' == w)
    decreases |hs|
  {
    if |hs| > 0 {
      var w1 := OnVisibility(p, cfg, w, hs[0], true).world;
      ToggleLoopFollowsLastChange(p, cfg, w1, hs[1..]);
      if |hs| == 1 {
        assert Toggle(p, cfg, w, hs) == w1;
      } else {
        assert hs[1..][|hs[1..]| - 1] == hs[|hs| - 1];
      }
    }
  }
}

=== FILE: basics.dfy ===
/** Shared vocabulary: optional values, peer identities, JavaScript-style
    slicing and prefix tests, and the decimal rendering JavaScript uses when a
    number is concatenated to a string (hub identities are built that way). */
module Basics {

  datatype Option<+T> = None | Some(value: T)

  /** Peer identities are plain strings handed out by the transport. */
  type PeerId = string

  /** `s.slice(0, n)` for a non-negative `n`: the first `n` elements, or all of
      them when there are fewer. */
  function Take<T>(s: seq<T>, n: nat): (r: seq<T>)
    ensures r <= s
    ensures |r| == if n < |s| then n else |s|
  {
    if n < |s| then s[..n] else s
  }

  /** `s.startsWith(prefix)` */
  predicate StartsWith(s: string, prefix: string) {
    prefix <= s
  }

  /** `Math.abs` on integers. */
  function Abs(x: int): (r: nat)
    ensures r == x || r == -x
  {
    if x < 0 then -x else x
  }

  predicate IsDigits(s: string) {
    forall i :: 0 <= i < |s| ==> '0' <= s[i] <= '9'
  }

  function DigitChar(d: nat): (c: char)
    requires d < 10
    ensures '0' <= c <= '9'
    ensures c as int - '0' as int == d
  {
    ('0' as int + d) as char
  }

  /** The text of `"" + n` for a non-negative integer `n`. */
  function Decimal(n: nat): (r: string)
    ensures 1 <= |r|
    ensures IsDigits(r)
    ensures r[0] == '0' <==> n == 0
  {
    if n < 10 then [DigitChar(n)] else Decimal(n / 10) + [DigitChar(n % 10)]
  }

  /** Reads a string of decimal digits back as a number. */
  function DigitsValue(s: string): nat
    requires IsDigits(s)
  {
    if |s| == 0 then 0
    else DigitsValue(s[..|s| - 1]) * 10 + (s[|s| - 1] as int - '0' as int)
  }

  lemma {:induction false} DecimalRoundTrip(n: nat)
    ensures DigitsValue(Decimal(n)) == n
  {
    if n >= 10 {
      DecimalRoundTrip(n / 10);
      var s := Decimal(n);
      assert s[..|s| - 1] == Decimal(n / 10);
    }
  }

  /** Distinct numbers render to distinct texts. */
  lemma DecimalInjective(a: nat, b: nat)
    ensures Decimal(a) == Decimal(b) ==> a == b
  {
    DecimalRoundTrip(a);
    DecimalRoundTrip(b);
  }

  /** Appending distinct decimal suffixes to a common prefix gives distinct strings. */
  lemma PrefixedDecimalInjective(prefix: string, a: nat, b: nat)
    ensures prefix + Decimal(a) == prefix + Decimal(b) ==> a == b
  {
    if prefix + Decimal(a) == prefix + Decimal(b) {
      assert Decimal(a) == (prefix + Decimal(a))[|prefix|..];
      assert Decimal(b) == (prefix + Decimal(b))[|prefix|..];
      DecimalInjective(a, b);
    }
  }
}

=== FILE: mqtt.dfy ===
/** The presence channel of `modules/mqtt.js`: how the broker connection is
    routed (directly, or through a proxy after any failure), the failure
    counter that drives that choice, what happens on connect, and how presence
    announcements are sent and acted upon. */
module Mqtt {
  import opened Basics
  import opened Registry
  import opened Protocol
  import opened P2P
  import opened World
  import P2PProps

  /** The proxy path: the direct endpoint written out behind `/https://`. */
  function ProxyPath(cfg: BrokerConfig): string {
    "/https://" + cfg.broker + ":" + Decimal(cfg.port) + cfg.path
  }

  /** Where `start()` connects, given the failures since the last success. */
  function RouteFor(cfg: BrokerConfig, failCount: nat): (r: Route)
    ensures r.isProxy <==> failCount > 0
    ensures r.timeout == if r.isProxy then 10 else 5
    ensures !r.isProxy ==> r.host == cfg.broker && r.port == cfg.port && r.path == cfg.path
    ensures r.isProxy ==> r.host == cfg.proxyHost && r.port == 443 && r.path == ProxyPath(cfg)
  {
    if failCount > 0 then Route(cfg.proxyHost, 443, ProxyPath(cfg), 10, true)
    else Route(cfg.broker, cfg.port, cfg.path, 5, false)
  }

  /** The proxy path names the direct endpoint: two configurations with the same
      broker host and path but different ports give different proxy paths. */
  lemma ProxyPathKeepsPort(a: BrokerConfig, b: BrokerConfig)
    requires a.broker == b.broker && a.path == b.path
    ensures ProxyPath(a) == ProxyPath(b) ==> a.port == b.port
  {
    if ProxyPath(a) == ProxyPath(b) {
      var pre := "/https://" + a.broker + ":";
      assert ProxyPath(a) == pre + Decimal(a.port) + a.path;
      assert ProxyPath(b) == pre + Decimal(b.port) + a.path;
      var n := |ProxyPath(a)| - |a.path|;
      assert Decimal(a.port) == ProxyPath(a)[|pre|..n];
      assert Decimal(b.port) == ProxyPath(b)[|pre|..n];
      DecimalInjective(a.port, b.port);
    }
  }

  /** `mqtt.start()`. Without the client library it only retries in three
      seconds; otherwise it creates a client and connects along the route the
      failure count selects. */
  function StartPresence(cfg: BrokerConfig, w: World, libraryLoaded: bool): (r: WorldStep)
    ensures !libraryLoaded ==> r == WorldStep(w, [After(3000, RestartPresence)])
    ensures libraryLoaded ==> r.world == w.(session := w.session.(client := Connecting))
    ensures libraryLoaded ==> r.fx == [ConnectBroker(RouteFor(cfg, w.session.failCount))]
    ensures r.world.session.failCount == w.session.failCount
  {
    if !libraryLoaded then WorldStep(w, [After(3000, RestartPresence)])
    else WorldStep(w.(session := w.session.(client := Connecting)), [ConnectBroker(RouteFor(cfg, w.session.failCount))])
  }

  /** The announcement a node makes of itself: hubs send a pulse with their
      index, other nodes a plain presence; both carry id and synchronised time. */
  function OwnPresence(n: Node, t: Clock): (d: Presence)
    ensures d.id == Some(n.myId) && d.ts == Some(t.synced)
    ensures d.isPulse <==> n.isHub
    ensures d.hubIndex == if n.isHub then n.hubIndex else None
  {
    if n.isHub then Presence(true, Some(n.myId), n.hubIndex, Some(t.synced))
    else Presence(false, Some(n.myId), None, Some(t.synced))
  }

  /** `sendPresence()`: publishes only over a connected client. */
  function SendPresence(w: World, t: Clock): (fx: seq<Effect>)
    ensures fx == [] <==> w.session.client != Connected
    ensures fx != [] ==> fx == [Publish(OwnPresence(w.node, t))]
  {
    if w.session.client == Connected then [Publish(OwnPresence(w.node, t))] else []
  }

  /** The pulse interval: slower over the proxy. */
  function PulsePeriod(isProxy: bool): int {
    if isProxy then 10000 else 4000
  }

  /** The role-dependent part of `onConnect`: a hub that got through directly
      resigns (the broker is reachable again, so the fallback hub is no longer
      needed); everyone else patrols the hubs. */
  function ResignOrPatrol(p: Params, n: Node, isProxy: bool, t: Clock): (r: NodeStep)
    ensures SameSelf(n, r.node)
    ensures Resign in r.fx <==> n.isHub && !isProxy
    ensures n.isHub && !isProxy ==> r == NodeStep(n, [Resign])
    ensures !(n.isHub && !isProxy) ==> r == PatrolHubs(p, n, t)
    ensures forall e :: e in r.fx ==> e == Resign || (e.Dial? && exists i :: 0 <= i < p.hubCount && e.link.peer == HubId(p, i))
  {
    P2PProps.PatrolOnlyDialsHubs(p, n, t);
    if n.isHub && !isProxy then NodeStep(n, [Resign]) else PatrolHubs(p, n, t)
  }

  /** Stops the previous pulse timer, if any, and starts a new one. */
  function ReplacePulse(w: World, isProxy: bool): (r: WorldStep)
    ensures r.world == w.(intervals := r.world.intervals, nextTimer := w.nextTimer + 1,
                          session := w.session.(pulseTimer := Some(w.nextTimer)))
    ensures forall id: TimerId :: StopInterval(id) in r.fx <==> w.session.pulseTimer == Some(id)
    ensures |r.fx| >= 1 && r.fx[|r.fx| - 1] == StartInterval(w.nextTimer, PulsePeriod(isProxy), PulseTick)
    ensures forall e :: e in r.fx ==> e.StopInterval? || e.StartInterval?
    ensures r.world.intervals == Retired(w)[w.nextTimer := PulseTick]
  {
    var stop := if w.session.pulseTimer.Some? then ClearInterval(w, w.session.pulseTimer.value) else WorldStep(w, []);
    var start := SetInterval(stop.world, PulsePeriod(isProxy), PulseTick);
    WorldStep(start.world.(session := start.world.session.(pulseTimer := Some(w.nextTimer))), stop.fx + start.fx)
  }

  /** The live timers once the held pulse timer, if any, is cleared. */
  function Retired(w: World): map<TimerId, Repeating> {
    if w.session.pulseTimer.Some? then w.intervals - {w.session.pulseTimer.value} else w.intervals
  }

  /** Replacing the pulse keeps every timer variable naming exactly its live timer. */
  lemma ReplacePulseKeepsTimers(w: World, isProxy: bool)
    requires TimersConsistent(w)
    ensures TimersConsistent(ReplacePulse(w, isProxy).world)
    ensures ReplacePulse(w, isProxy).world.intervals[w.nextTimer] == PulseTick
  {
    var w' := ReplacePulse(w, isProxy).world;
    forall id | id in w'.intervals ensures id < w'.nextTimer {
    }
  }

  /** `onConnect(isProxy)`: online, counter reset, subscribe, resign or patrol,
      announce, and replace the pulse timer. */
  function OnConnect(p: Params, cfg: BrokerConfig, w: World, isProxy: bool, t: Clock): (r: WorldStep)
    ensures r.world.session.status == Online && r.world.session.failCount == 0
    ensures r.world.session.client == Connected
    ensures r.world.hidden == w.hidden && r.world.loopTimer == w.loopTimer && r.world.heartbeats == w.heartbeats
    ensures SameSelf(w.node, r.world.node)
    ensures w.node.isHub && !isProxy ==> r.world.node == w.node
    ensures !(w.node.isHub && !isProxy) ==> r.world.node == PatrolHubs(p, w.node, t).node
    ensures r.world.session.pulseTimer == Some(w.nextTimer)
    ensures |r.fx| >= 3 && r.fx[0] == UpdateSelf && r.fx[1] == Subscribe(cfg.topic)
    ensures r.fx[|r.fx| - 1] == StartInterval(w.nextTimer, PulsePeriod(isProxy), PulseTick)
  {
    var w1 := w.(session := w.session.(status := Online, failCount := 0, client := Connected));
    var mid := ResignOrPatrol(p, w.node, isProxy, t);
    var w2 := w1.(node := mid.node);
    var pulse := ReplacePulse(w2, isProxy);
    WorldStep(pulse.world, [UpdateSelf, Subscribe(cfg.topic)] + mid.fx + SendPresence(w2, t) + pulse.fx)
  }

  /** After `onConnect` the new pulse is the only one alive, and the timer
      variables still name exactly the live timers. */
  lemma OnConnectKeepsTimers(p: Params, cfg: BrokerConfig, w: World, isProxy: bool, t: Clock)
    requires TimersConsistent(w)
    ensures TimersConsistent(OnConnect(p, cfg, w, isProxy, t).world)
    ensures var w' := OnConnect(p, cfg, w, isProxy, t).world;
      forall id :: id in w'.intervals && w'.intervals[id] == PulseTick <==> id == w.nextTimer
  {
    var mid := ResignOrPatrol(p, w.node, isProxy, t);
    var w2 := w.(session := w.session.(status := Online, failCount := 0, client := Connected), node := mid.node);
    assert TimersConsistent(w2);
    ReplacePulseKeepsTimers(w2, isProxy);
  }

  /** The effects of `onConnect` in the order it asks for them. */
  lemma OnConnectShape(p: Params, cfg: BrokerConfig, w: World, isProxy: bool, t: Clock)
    ensures
      var mid := ResignOrPatrol(p, w.node, isProxy, t);
      var w2 := w.(session := w.session.(status := Online, failCount := 0, client := Connected), node := mid.node);
      OnConnect(p, cfg, w, isProxy, t).fx
        == [UpdateSelf, Subscribe(cfg.topic)] + mid.fx + [Publish(OwnPresence(w.node, t))] + ReplacePulse(w2, isProxy).fx
  {
  }

  /** `onConnect` resigns exactly when a hub got through directly and
      otherwise dials what a patrol dials, announces itself exactly once, and
      stops exactly the pulse timer it held. */
  lemma OnConnectEffects(p: Params, cfg: BrokerConfig, w: World, isProxy: bool, t: Clock)
    ensures Resign in OnConnect(p, cfg, w, isProxy, t).fx <==> w.node.isHub && !isProxy
    ensures !(w.node.isHub && !isProxy) ==>
      Dialed(OnConnect(p, cfg, w, isProxy, t).fx) == Dialed(PatrolHubs(p, w.node, t).fx)
    ensures multiset(OnConnect(p, cfg, w, isProxy, t).fx)[Publish(OwnPresence(w.node, t))] == 1
    ensures forall id: TimerId :: StopInterval(id) in OnConnect(p, cfg, w, isProxy, t).fx <==> w.session.pulseTimer == Some(id)
  {
    OnConnectResigns(p, cfg, w, isProxy, t);
    OnConnectDialsAsRole(p, cfg, w, isProxy, t);
    OnConnectAnnouncesOnce(p, cfg, w, isProxy, t);
    OnConnectStopsHeld(p, cfg, w, isProxy, t);
  }

  lemma OnConnectResigns(p: Params, cfg: BrokerConfig, w: World, isProxy: bool, t: Clock)
    ensures Resign in OnConnect(p, cfg, w, isProxy, t).fx <==> w.node.isHub && !isProxy
  {
    OnConnectShape(p, cfg, w, isProxy, t);
    var mid := ResignOrPatrol(p, w.node, isProxy, t);
    var w2 := w.(session := w.session.(status := Online, failCount := 0, client := Connected), node := mid.node);
    PiecesResign([UpdateSelf, Subscribe(cfg.topic)], mid.fx, Publish(OwnPresence(w.node, t)), ReplacePulse(w2, isProxy).fx);
  }

  lemma OnConnectAnnouncesOnce(p: Params, cfg: BrokerConfig, w: World, isProxy: bool, t: Clock)
    ensures multiset(OnConnect(p, cfg, w, isProxy, t).fx)[Publish(OwnPresence(w.node, t))] == 1
  {
    OnConnectShape(p, cfg, w, isProxy, t);
    var mid := ResignOrPatrol(p, w.node, isProxy, t);
    var w2 := w.(session := w.session.(status := Online, failCount := 0, client := Connected), node := mid.node);
    PiecesOnce([UpdateSelf, Subscribe(cfg.topic)], mid.fx, Publish(OwnPresence(w.node, t)), ReplacePulse(w2, isProxy).fx);
  }

  lemma OnConnectStopsHeld(p: Params, cfg: BrokerConfig, w: World, isProxy: bool, t: Clock)
    ensures forall id: TimerId :: StopInterval(id) in OnConnect(p, cfg, w, isProxy, t).fx <==> w.session.pulseTimer == Some(id)
  {
    OnConnectShape(p, cfg, w, isProxy, t);
    var mid := ResignOrPatrol(p, w.node, isProxy, t);
    var w2 := w.(session := w.session.(status := Online, failCount := 0, client := Connected), node := mid.node);
    assert w2.session.pulseTimer == w.session.pulseTimer;
    PiecesStops([UpdateSelf, Subscribe(cfg.topic)], mid.fx, Publish(OwnPresence(w.node, t)), ReplacePulse(w2, isProxy).fx);
  }

  /** The dials of `onConnect` are those of its role-dependent part. */
  lemma OnConnectDialsAsRole(p: Params, cfg: BrokerConfig, w: World, isProxy: bool, t: Clock)
    ensures Dialed(OnConnect(p, cfg, w, isProxy, t).fx) == Dialed(ResignOrPatrol(p, w.node, isProxy, t).fx)
  {
    OnConnectShape(p, cfg, w, isProxy, t);
    var mid := ResignOrPatrol(p, w.node, isProxy, t);
    var w2 := w.(session := w.session.(status := Online, failCount := 0, client := Connected), node := mid.node);
    PiecesDials([UpdateSelf, Subscribe(cfg.topic)], mid.fx, Publish(OwnPresence(w.node, t)), ReplacePulse(w2, isProxy).fx);
  }

  // The four-part effect list of `onConnect`: a fixed head, the role's part,
  // the announcement and the pulse timer's part.

  lemma PiecesResign(head: seq<Effect>, mid: seq<Effect>, announce: Effect, pulse: seq<Effect>)
    requires forall e :: e in head ==> e.UpdateSelf? || e.Subscribe?
    requires forall e :: e in pulse ==> e.StopInterval? || e.StartInterval?
    requires announce.Publish?
    ensures Resign in head + mid + [announce] + pulse <==> Resign in mid
  {
  }

  lemma PiecesOnce(head: seq<Effect>, mid: seq<Effect>, announce: Effect, pulse: seq<Effect>)
    requires forall e :: e in head ==> e.UpdateSelf? || e.Subscribe?
    requires forall e :: e in mid ==> e.Resign? || e.Dial?
    requires forall e :: e in pulse ==> e.StopInterval? || e.StartInterval?
    requires announce.Publish?
    ensures multiset(head + mid + [announce] + pulse)[announce] == 1
  {
    assert announce !in head + mid;
    CountOnce(head + mid, announce, pulse);
  }

  /** An element absent from both sides occurs once around them. */
  lemma CountOnce<T>(front: seq<T>, x: T, back: seq<T>)
    requires x !in front && x !in back
    ensures multiset(front + [x] + back)[x] == 1
  {
    assert multiset(front + [x] + back) == multiset(front) + multiset([x]) + multiset(back);
  }

  lemma PiecesStops(head: seq<Effect>, mid: seq<Effect>, announce: Effect, pulse: seq<Effect>)
    requires forall e :: e in head ==> e.UpdateSelf? || e.Subscribe?
    requires forall e :: e in mid ==> e.Resign? || e.Dial?
    requires announce.Publish?
    ensures forall id: TimerId :: StopInterval(id) in head + mid + [announce] + pulse <==> StopInterval(id) in pulse
  {
  }

  lemma PiecesDials(head: seq<Effect>, mid: seq<Effect>, announce: Effect, pulse: seq<Effect>)
    requires forall e :: e in head ==> e.UpdateSelf? || e.Subscribe?
    requires forall e :: e in pulse ==> e.StopInterval? || e.StartInterval?
    requires announce.Publish?
    ensures Dialed(head + mid + [announce] + pulse) == Dialed(mid)
  {
    DialedAppend(head, mid);
    DialedAppend(head + mid, [announce]);
    DialedAppend(head + mid + [announce], pulse);
    NoDials(head);
    NoDials([announce]);
    NoDials(pulse);
  }

  lemma RoleDialsHubs(p: Params, n: Node, isProxy: bool, t: Clock)
    ensures forall id :: id in Dialed(ResignOrPatrol(p, n, isProxy, t).fx) ==>
      exists i :: 0 <= i < p.hubCount && id == HubId(p, i)
    ensures n.isHub && !isProxy ==> Dialed(ResignOrPatrol(p, n, isProxy, t).fx) == []
  {
    var mid := ResignOrPatrol(p, n, isProxy, t);
    forall id | id in Dialed(mid.fx)
      ensures exists i :: 0 <= i < p.hubCount && id == HubId(p, i)
    {
      var e :| e in mid.fx && e.Dial? && e.link.peer == id;
    }
    if n.isHub && !isProxy {
      NoDials(mid.fx);
    }
  }

  /** `onConnect` dials only well-known hubs, and none at all when it resigns. */
  lemma OnConnectDialsHubs(p: Params, cfg: BrokerConfig, w: World, isProxy: bool, t: Clock)
    ensures forall id :: id in Dialed(OnConnect(p, cfg, w, isProxy, t).fx) ==>
      exists i :: 0 <= i < p.hubCount && id == HubId(p, i)
    ensures w.node.isHub && !isProxy ==> Dialed(OnConnect(p, cfg, w, isProxy, t).fx) == []
  {
    OnConnectDialsAsRole(p, cfg, w, isProxy, t);
    RoleDialsHubs(p, w.node, isProxy, t);
  }

  lemma NoDials(fx: seq<Effect>)
    requires forall e :: e in fx ==> !e.Dial?
    ensures Dialed(fx) == []
  {
    if Dialed(fx) != [] {
      assert Dialed(fx)[0] in Dialed(fx);
    }
  }

  /** `onFail`: status failed, one more failure, retry after the configured delay.
      The pulse timer is left running; it stays silent while the client is down. */
  function OnFail(p: Params, w: World): (r: WorldStep)
    ensures r.world.session.status == Failed
    ensures r.world.session.failCount == w.session.failCount + 1
    ensures r.world.session.client != Connected
    ensures r.world == w.(session := r.world.session)
    ensures r.world.session.pulseTimer == w.session.pulseTimer
    ensures r.fx == [UpdateSelf, After(p.retryDelay, RestartPresence)]
  {
    WorldStep(w.(session := w.session.(status := Failed, failCount := w.session.failCount + 1, client := Dropped)),
              [UpdateSelf, After(p.retryDelay, RestartPresence)])
  }

  /** `onLost`: as `onFail`, but the status says the connection was lost. */
  function OnLost(p: Params, w: World): (r: WorldStep)
    ensures r.world.session.status == Lost
    ensures r.world.session.failCount == w.session.failCount + 1
    ensures r.world.session.client != Connected
    ensures r.world == w.(session := r.world.session)
    ensures r.world.session.pulseTimer == w.session.pulseTimer
    ensures r.fx == [UpdateSelf, After(p.retryDelay, RestartPresence)]
  {
    WorldStep(w.(session := w.session.(status := Lost, failCount := w.session.failCount + 1, client := Dropped)),
              [UpdateSelf, After(p.retryDelay, RestartPresence)])
  }

  /** A surviving pulse timer announces nothing after a failure or loss. */
  lemma SilentAfterDrop(p: Params, w: World, t: Clock)
    ensures SendPresence(OnFail(p, w).world, t) == []
    ensures SendPresence(OnLost(p, w).world, t) == []
  {
  }

  // ---------------------------------------------------------------------------
  // the retry machine

  /** How one connection attempt ended. */
  datatype Outcome = Success(isProxy: bool) | Failure | Loss

  function Settle(p: Params, cfg: BrokerConfig, w: World, o: Outcome, t: Clock): World {
    match o
    case Success(x) => OnConnect(p, cfg, w, x, t).world
    case Failure => OnFail(p, w).world
    case Loss => OnLost(p, w).world
  }

  /** The session after a run of outcomes, in order. */
  function Replay(p: Params, cfg: BrokerConfig, w: World, outs: seq<Outcome>, t: Clock): World
    decreases |outs|
  {
    if |outs| == 0 then w
    else Settle(p, cfg, Replay(p, cfg, w, outs[..|outs| - 1], t), outs[|outs| - 1], t)
  }

  /** Failures and losses since the last success (counting from `start` if none). */
  function Streak(start: nat, outs: seq<Outcome>): nat {
    if exists i :: 0 <= i < |outs| && outs[i].Success? then |outs| - 1 - LastSuccess(outs)
    else start + |outs|
  }

  /** Position of the last success in a run that has one. */
  function LastSuccess(outs: seq<Outcome>): (i: nat)
    requires exists i :: 0 <= i < |outs| && outs[i].Success?
    ensures i < |outs| && outs[i].Success?
    ensures forall j :: i < j < |outs| ==> !outs[j].Success?
  {
    if outs[|outs| - 1].Success? then |outs| - 1
    else
      var k :| 0 <= k < |outs| && outs[k].Success?;
      assert outs[..|outs| - 1][k] == outs[k];
      var i := LastSuccess(outs[..|outs| - 1]);
      assert outs[i] == outs[..|outs| - 1][i];
      i
  }

  /** The failure counter is the number of failures and losses since the last
      success; with no success in the run it keeps growing from where it was. */
  lemma {:induction false} ReplayCountsStreak(p: Params, cfg: BrokerConfig, w: World, outs: seq<Outcome>, t: Clock)
    ensures Replay(p, cfg, w, outs, t).session.failCount == Streak(w.session.failCount, outs)
    decreases |outs|
  {
    if |outs| > 0 {
      var init := outs[..|outs| - 1];
      ReplayCountsStreak(p, cfg, w, init, t);
      if !outs[|outs| - 1].Success? {
        if exists i :: 0 <= i < |outs| && outs[i].Success? {
          var k :| 0 <= k < |outs| && outs[k].Success?;
          assert init[k] == outs[k];
          var a := LastSuccess(outs);
          var b := LastSuccess(init);
          assert init[a] == outs[a] && outs[b] == init[b];
          assert a == b;
        } else {
          assert forall i :: 0 <= i < |init| ==> init[i] == outs[i];
        }
      }
    }
  }

  /** The next `start()` goes through the proxy exactly when the most recent
      attempt failed or was lost, and directly after a success. */
  lemma RouteFollowsLastOutcome(p: Params, cfg: BrokerConfig, w: World, outs: seq<Outcome>, t: Clock)
    requires |outs| > 0
    ensures RouteFor(cfg, Replay(p, cfg, w, outs, t).session.failCount).isProxy <==> !outs[|outs| - 1].Success?
  {
    ReplayCountsStreak(p, cfg, w, outs, t);
    if !outs[|outs| - 1].Success? && exists i :: 0 <= i < |outs| && outs[i].Success? {
      assert LastSuccess(outs) < |outs| - 1;
    }
  }

  // ---------------------------------------------------------------------------
  // incoming presence

  /** Older or newer than two minutes by the synchronised clock. A missing or
      non-numeric `ts` compares as NaN, so it is never stale. */
  predicate Stale(d: Presence, t: Clock) {
    d.ts.Some? && Abs(t.synced - d.ts.value) > 120000
  }

  /** Whether `onMessage` asks `connectTo` for the sender: a pulse from an
      unknown hub while the registry has fewer than 5 entries (open or not), or
      a presence from an unknown node other than ourselves while fewer than 6
      links are open. */
  predicate Invites(n: Node, d: Presence) {
    && d.id.Some?
    && !Has(n.conns, d.id.value)
    && if d.isPulse then Size(n.conns) < 5
       else d.id.value != n.myId && |OpenKeys(n.conns)| < 6
  }

  /** `onMessage(msg)`, with the payload already parsed (`None` when parsing failed). */
  function OnMessage(p: Params, w: World, d: Option<Presence>, t: Clock): (r: WorldStep)
    ensures r.world == w.(node := r.world.node, heartbeats := r.world.heartbeats)
    ensures d.None? || Stale(d.value, t) ==> r == WorldStep(w, [])
    ensures r.world.heartbeats ==
      if d.Some? && !Stale(d.value, t) && d.value.isPulse then w.heartbeats[d.value.hubIndex := t.local] else w.heartbeats
    ensures r.fx != [] ==>
      (&& d.Some? && !Stale(d.value, t) && Invites(w.node, d.value)
       && r.fx == [Dial(LinkRef(d.value.id.value, w.node.nextHandle))])
    ensures
      (&& d.Some? && !Stale(d.value, t) && Invites(w.node, d.value)
       && WantsLink(w.node, d.value.id.value) && w.node.transport == Up)
      ==> r.fx == [Dial(LinkRef(d.value.id.value, w.node.nextHandle))]
    ensures !(d.Some? && !Stale(d.value, t) && Invites(w.node, d.value)) ==> r.world.node == w.node
    ensures d.Some? && !Stale(d.value, t) && Invites(w.node, d.value) ==>
      r.world.node == ConnectTo(p, w.node, d.value.id.value, t).node && r.fx == ConnectTo(p, w.node, d.value.id.value, t).fx
  {
    match d
    case None => WorldStep(w, [])
    case Some(m) =>
      if Stale(m, t) then WorldStep(w, [])
      else
        var w1 := if m.isPulse then w.(heartbeats := w.heartbeats[m.hubIndex := t.local]) else w;
        if Invites(w.node, m) then
          var s := ConnectTo(p, w.node, m.id.value, t);
          WorldStep(w1.(node := s.node), s.fx)
        else WorldStep(w1, [])
  }

  /** A node's own plain announcement, heard back from the broker, changes nothing. */
  lemma OwnPresenceIgnored(p: Params, w: World, t: Clock, t2: Clock)
    requires !w.node.isHub
    ensures OnMessage(p, w, Some(OwnPresence(w.node, t)), t2) == WorldStep(w, [])
  {
  }

  /** A hub's own pulse, heard back, only refreshes its own heartbeat: the
      `connectTo` it may trigger is for its own id, which the guard refuses. */
  lemma OwnPulseOnlyBeats(p: Params, w: World, t: Clock, t2: Clock)
    requires w.node.isHub && Abs(t2.synced - t.synced) <= 120000
    ensures OnMessage(p, w, Some(OwnPresence(w.node, t)), t2)
         == WorldStep(w.(heartbeats := w.heartbeats[w.node.hubIndex := t2.local]), [])
  {
  }

  /** Another node hears a hub's pulse sent within two minutes of its own
      clock: it records the beat under that hub's index and dials the hub only
      if it has no entry for it and fewer than 5 entries in all. */
  lemma PulseHeardElsewhere(p: Params, hub: Node, w: World, t: Clock, t2: Clock)
    requires hub.isHub && Abs(t2.synced - t.synced) <= 120000
    requires w.node.transport == Up && w.node.myId != hub.myId && hub.myId != ""
    ensures var r := OnMessage(p, w, Some(OwnPresence(hub, t)), t2);
      && r.world.heartbeats == w.heartbeats[hub.hubIndex := t2.local]
      && (Dialed(r.fx) == [hub.myId] <==> !Has(w.node.conns, hub.myId) && Size(w.node.conns) < 5)
  {
  }

  /** A presence whose time is missing is never dropped as stale. */
  lemma MissingTimeIsFresh(d: Presence, t: Clock)
    requires d.ts.None?
    ensures !Stale(d, t)
  {
  }
}

=== FILE: p2p.dfy ===
/** The transport manager of `modules/p2p.js`: admission of links, the
    per-link handshake and message dispatch, hub patrol and the periodic
    prune-and-gossip pass. Every handler is a pure step from the node's state
    (and the event's inputs) to the new state plus the effects it asks for. */
module P2P {
  import opened Basics
  import opened Registry
  import opened Protocol

  /** The transport handle `state.peer`, as far as the overlay observes it. */
  datatype Transport =
    | NoPeer        // no handle yet
    | Up            // bound and signalling: `connect` yields a link
    | Disconnected  // bound but its signalling session dropped: `connect` yields none
    | Destroyed     // `state.peer.destroyed`

  /** Which handler set `setupConn` attached to a link object. */
  datatype Setup = Admit | Reject

  datatype Node = Node(
    myId: PeerId,
    myName: string,
    isHub: bool,
    hubIndex: Option<int>,
    transport: Transport,
    conns: Registry,
    setups: map<Handle, Setup>,
    nextHandle: Handle,
    searchLogShown: bool)

  datatype NodeStep = NodeStep(node: Node, fx: seq<Effect>)

  /** What the handlers of this module keep fixed: who the node is, the state
      of its transport, and the supply of fresh link handles only grows. */
  predicate SameSelf(a: Node, b: Node) {
    && a.myId == b.myId
    && a.myName == b.myName
    && a.isHub == b.isHub
    && a.hubIndex == b.hubIndex
    && a.transport == b.transport
    && a.searchLogShown == b.searchLogShown
    && a.nextHandle <= b.nextHandle
  }

  /** The well-known identity of hub `i`: the prefix followed by `i` in decimal. */
  function HubId(p: Params, i: nat): PeerId {
    p.hubPrefix + Decimal(i)
  }

  /** The admission bound in force for the node's current role. */
  function Capacity(p: Params, n: Node): nat {
    if n.isHub then p.maxPeersHub else p.maxPeersNormal
  }

  /** The registry entry under `link.peer` is this very link object. */
  predicate Tracked(n: Node, link: LinkRef) {
    link.peer in n.conns.entries && n.conns.entries[link.peer].handle == link.handle
  }

  /** Overwrites the entry of a tracked link object, keeping its key position. */
  function Rewrite(n: Node, link: LinkRef, c: Conn): (n': Node)
    requires Tracked(n, link)
    ensures n'.conns.order == n.conns.order
    ensures n'.conns.entries == n.conns.entries[link.peer := c]
    ensures n' == n.(conns := n'.conns)
  {
    n.(conns := Put(n.conns, link.peer, c))
  }

  /** The transport library flips `conn.open`; the registry sees it only when
      it holds that very object. */
  function SetOpenFlag(n: Node, link: LinkRef, v: bool): (n': Node)
    ensures n'.conns.order == n.conns.order
    ensures Tracked(n, link) ==> n'.conns.entries == n.conns.entries[link.peer := n.conns.entries[link.peer].(open := v)]
    ensures !Tracked(n, link) ==> n' == n
    ensures n' == n.(conns := n'.conns)
  {
    if Tracked(n, link) then Rewrite(n, link, n.conns.entries[link.peer].(open := v)) else n
  }

  /** `conn.lastPong = Date.now()` */
  function Refresh(n: Node, link: LinkRef, now: int): (n': Node)
    ensures n'.conns.order == n.conns.order
    ensures Tracked(n, link) ==> n'.conns.entries == n.conns.entries[link.peer := n.conns.entries[link.peer].(lastPong := Some(now))]
    ensures !Tracked(n, link) ==> n' == n
    ensures n' == n.(conns := n'.conns)
  {
    if Tracked(n, link) then Rewrite(n, link, n.conns.entries[link.peer].(lastPong := Some(now))) else n
  }

  /** `conn.label = d.n` */
  function Relabel(n: Node, link: LinkRef, name: Option<string>): (n': Node)
    ensures n'.conns.order == n.conns.order
    ensures Tracked(n, link) ==> n'.conns.entries == n.conns.entries[link.peer := n.conns.entries[link.peer].(peerName := name)]
    ensures !Tracked(n, link) ==> n' == n
    ensures n' == n.(conns := n'.conns)
  {
    if Tracked(n, link) then Rewrite(n, link, n.conns.entries[link.peer].(peerName := name)) else n
  }

  // ---------------------------------------------------------------------------
  // connectTo / setupConn

  /** The guard of `connectTo`: a non-empty id, not our own, with no open link. */
  predicate WantsLink(n: Node, id: PeerId) {
    id != "" && id != n.myId && !IsOpen(n.conns, id)
  }

  /** `setupConn(conn)`: the admission decision, taken on the registry as it
      is when the handlers are attached, and remembered for the link's events. */
  function SetupConn(p: Params, n: Node, h: Handle): (n': Node)
    ensures h in n'.setups
    ensures n'.setups[h] == Reject <==> Size(n.conns) >= Capacity(p, n)
    ensures forall g :: g in n.setups && g != h ==> g in n'.setups && n'.setups[g] == n.setups[g]
    ensures n' == n.(setups := n'.setups)
  {
    var mode := if Size(n.conns) >= Capacity(p, n) then Reject else Admit;
    n.(setups := n.setups[h := mode])
  }

  /** `connectTo(id)`: dial `id` and occupy its registry slot at once with a
      non-open placeholder, so that a second attempt is not started. The
      placeholder already counts against capacity when `setupConn` decides. */
  function ConnectTo(p: Params, n: Node, id: PeerId, t: Clock): (r: NodeStep)
    ensures SameSelf(n, r.node)
    ensures forall k :: IsOpen(r.node.conns, k) <==> IsOpen(n.conns, k)
    ensures forall k :: k != id ==> Get(r.node.conns, k) == Get(n.conns, k)
    ensures n.conns.order <= r.node.conns.order
    ensures Size(r.node.conns) <= Size(n.conns) + 1
    ensures !(WantsLink(n, id) && n.transport == Up) ==> r == NodeStep(n, [])
    ensures WantsLink(n, id) && n.transport == Up ==>
      && r.fx == [Dial(LinkRef(id, n.nextHandle))]
      && id in r.node.conns.entries
      && r.node.conns.entries[id] == Conn(n.nextHandle, false, t.synced, None, None)
      && r.node.nextHandle == n.nextHandle + 1
      && Size(r.node.conns) == (if Has(n.conns, id) then Size(n.conns) else Size(n.conns) + 1)
      && r.node.setups.Keys == n.setups.Keys + {n.nextHandle}
      && (forall h :: h in n.setups && h != n.nextHandle ==> r.node.setups[h] == n.setups[h])
      && (r.node.setups[n.nextHandle] == Reject <==> Size(r.node.conns) >= Capacity(p, n))
  {
    if !WantsLink(n, id) || n.transport != Up then NodeStep(n, [])
    else
      var h := n.nextHandle;
      var placeholder := Conn(h, false, t.synced, None, None);
      var n1 := n.(conns := Put(n.conns, id, placeholder), nextHandle := h + 1);
      NodeStep(SetupConn(p, n1, h), [Dial(LinkRef(id, h))])
  }

  /** `peer.on('connection', setupConn)`: an inbound link object gets the next
      handle; it enters the registry only if admitted and once it opens. */
  function OnConnection(p: Params, n: Node): (r: NodeStep)
    ensures SameSelf(n, r.node)
    ensures r.fx == [] && r.node.conns == n.conns
    ensures r.node.nextHandle == n.nextHandle + 1
    ensures r.node.setups.Keys == n.setups.Keys + {n.nextHandle}
    ensures forall h :: h in n.setups && h != n.nextHandle ==> r.node.setups[h] == n.setups[h]
    ensures r.node.setups[n.nextHandle] == Reject <==> Size(n.conns) >= Capacity(p, n)
  {
    NodeStep(SetupConn(p, n.(nextHandle := n.nextHandle + 1), n.nextHandle), [])
  }

  /** The key list sent in a PEER_EX after admission: every registry key, then our own id. */
  predicate ListsRegistryAndSelf(list: seq<PeerId>, r: Registry, self: PeerId) {
    |list| == Size(r) + 1 && list[..Size(r)] == Keys(r) && list[Size(r)] == self
  }

  /** The link's `open` event, with the handlers its setup attached.
      Rejected: one PEER_EX of at most ten known ids, then a close half a
      second later; the registry gains no key. Admitted: the link is stored
      under its peer with `created = lastPong = now`, then the handshake. */
  function OnOpen(n: Node, link: LinkRef, t: Clock): (r: NodeStep)
    ensures SameSelf(n, r.node) && r.node.setups == n.setups && r.node.nextHandle == n.nextHandle
    ensures link.handle !in n.setups ==> r.fx == [] && Keys(r.node.conns) == Keys(n.conns)
    ensures !(link.handle in n.setups && n.setups[link.handle] == Admit) ==>
      && (!Tracked(n, link) ==> r.node.conns == n.conns)
      && (Tracked(n, link) ==> r.node.conns.entries == n.conns.entries[link.peer := n.conns.entries[link.peer].(open := true)])
    ensures link.handle in n.setups && n.setups[link.handle] == Reject ==>
      && Keys(r.node.conns) == Keys(n.conns)
      && (forall k :: k != link.peer ==> Get(r.node.conns, k) == Get(n.conns, k))
      && (Tracked(n, link) ==> IsOpen(r.node.conns, link.peer))
      && |r.fx| == 2
      && r.fx[0] == Send(link, PeerEx(Some(Take(Keys(n.conns), 10))))
      && r.fx[1] == After(500, CloseLater(link))
    ensures link.handle in n.setups && n.setups[link.handle] == Admit ==>
      && Tracked(r.node, link)
      && r.node.conns.entries[link.peer] == Conn(link.handle, true, t.local, Some(t.local), None)
      && (forall k :: k != link.peer ==> Get(r.node.conns, k) == Get(n.conns, k))
      && n.conns.order <= r.node.conns.order
      && |r.fx| == 5
      && r.fx[0] == Send(link, Hello(Some(n.myName), Some(n.myId)))
      && r.fx[1].After? && r.fx[1].delay == 100 && r.fx[1].task.SendIfOpen?
      && r.fx[1].task.link == link && r.fx[1].task.msg.PeerEx? && r.fx[1].task.msg.list.Some?
      && ListsRegistryAndSelf(r.fx[1].task.msg.list.value, r.node.conns, n.myId)
      && r.fx[2..] == [QueryRecent(link), RetryPending, RenderList]
  {
    if link.handle !in n.setups then NodeStep(SetOpenFlag(n, link, true), [])
    else match n.setups[link.handle]
      case Reject => OpenRejected(n, link)
      case Admit => OpenAdmitted(n, link, t)
  }

  /** The rejection path's `open` handler: tell the peer whom we know, and hang up later. */
  function OpenRejected(n: Node, link: LinkRef): (r: NodeStep)
    ensures r.node == n.(conns := r.node.conns)
    ensures Keys(r.node.conns) == Keys(n.conns)
    ensures forall k :: k != link.peer ==> Get(r.node.conns, k) == Get(n.conns, k)
    ensures Tracked(n, link) ==> r.node.conns.entries[link.peer] == n.conns.entries[link.peer].(open := true)
    ensures !Tracked(n, link) ==> r.node == n
    ensures r.fx == [Send(link, PeerEx(Some(Take(Keys(n.conns), 10)))), After(500, CloseLater(link))]
  {
    var n1 := SetOpenFlag(n, link, true);
    NodeStep(n1, [Send(link, PeerEx(Some(Take(Keys(n1.conns), 10)))), After(500, CloseLater(link))])
  }

  /** The admitted path's `open` handler: register the link, then the handshake. */
  function OpenAdmitted(n: Node, link: LinkRef, t: Clock): (r: NodeStep)
    ensures r.node == n.(conns := r.node.conns)
    ensures Tracked(r.node, link)
    ensures r.node.conns.entries[link.peer] == Conn(link.handle, true, t.local, Some(t.local), None)
    ensures forall k :: k != link.peer ==> Get(r.node.conns, k) == Get(n.conns, k)
    ensures n.conns.order <= r.node.conns.order
    ensures |r.fx| == 5
    ensures r.fx[0] == Send(link, Hello(Some(n.myName), Some(n.myId)))
    ensures r.fx[1].After? && r.fx[1].delay == 100 && r.fx[1].task.SendIfOpen?
    ensures r.fx[1].task.link == link && r.fx[1].task.msg.PeerEx? && r.fx[1].task.msg.list.Some?
    ensures ListsRegistryAndSelf(r.fx[1].task.msg.list.value, r.node.conns, n.myId)
    ensures r.fx[2..] == [QueryRecent(link), RetryPending, RenderList]
  {
    // A link carries no label before it has opened: data only flows afterwards.
    var conns := Put(n.conns, link.peer, Conn(link.handle, true, t.local, Some(t.local), None));
    var list := Keys(conns) + [n.myId];
    NodeStep(n.(conns := conns),
      [ Send(link, Hello(Some(n.myName), Some(n.myId))),
        After(100, SendIfOpen(link, PeerEx(Some(list)))),
        QueryRecent(link), RetryPending, RenderList ])
  }

  /** The continuation of the handshake's `db.getRecent(1, 'all')`: half a
      second later ask the peer for everything after our newest message. */
  function OnRecentLoaded(link: LinkRef, recent: seq<int>): (fx: seq<Effect>)
    ensures |fx| == 1 && fx[0].After? && fx[0].delay == 500
    ensures fx[0].task == SendIfOpen(link, AskPub(Some(if recent == [] then 0 else recent[0])))
  {
    var lastTs := if |recent| > 0 then recent[0] else 0;
    [After(500, SendIfOpen(link, AskPub(Some(lastTs))))]
  }

  /** The link's `close` or `error` event. An admitted link deletes
      `conns[conn.peer]`, whichever object sits there; a rejected link has no
      such handler and only its `open` flag drops. */
  function OnGone(n: Node, link: LinkRef): (r: NodeStep)
    ensures SameSelf(n, r.node) && r.node.setups == n.setups && r.node.nextHandle == n.nextHandle
    ensures link.handle in n.setups && n.setups[link.handle] == Admit ==>
      && r.node.conns.entries == n.conns.entries - {link.peer}
      && SubseqOf(Keys(r.node.conns), Keys(n.conns))
      && r.fx == [RenderList]
    ensures !(link.handle in n.setups && n.setups[link.handle] == Admit) ==>
      && r.fx == []
      && Keys(r.node.conns) == Keys(n.conns)
      && (forall k :: k != link.peer ==> Get(r.node.conns, k) == Get(n.conns, k))
      && (Tracked(n, link) ==> r.node.conns.entries[link.peer] == n.conns.entries[link.peer].(open := false))
      && (!Tracked(n, link) ==> r.node.conns == n.conns)
  {
    if link.handle in n.setups && n.setups[link.handle] == Admit then
      NodeStep(n.(conns := Remove(n.conns, link.peer)), [RenderList])
    else
      NodeStep(SetOpenFlag(n, link, false), [])
  }

  // ---------------------------------------------------------------------------
  // handleData

  /** The per-id guard of the PEER_EX follow-up: a non-empty id, not our own,
      with no registry entry at all, while the registry is below the
      normal-node bound (also on a hub). */
  predicate Recruits(p: Params, n: Node, id: PeerId) {
    id != "" && id != n.myId && !Has(n.conns, id) && Size(n.conns) < p.maxPeersNormal
  }

  /** One id of a PEER_EX: `connectTo` it if the guard lets it through. */
  function Recruit(p: Params, n: Node, id: PeerId, t: Clock): (r: NodeStep)
    ensures SameSelf(n, r.node)
    ensures forall k :: k in n.conns.entries ==> k in r.node.conns.entries && r.node.conns.entries[k] == n.conns.entries[k]
    ensures n.conns.order <= r.node.conns.order
    ensures Size(r.node.conns) <= Size(n.conns) + 1
    ensures !Recruits(p, n, id) ==> r == NodeStep(n, [])
    ensures forall e :: e in r.fx ==> Recruits(p, n, id) && e == Dial(LinkRef(id, n.nextHandle))
    ensures Recruits(p, n, id) && n.transport == Up ==>
      && r.fx == [Dial(LinkRef(id, n.nextHandle))]
      && id in r.node.conns.entries
      && r.node.conns.entries[id] == Conn(n.nextHandle, false, t.synced, None, None)
      && Size(r.node.conns) == Size(n.conns) + 1
    ensures !(Recruits(p, n, id) && n.transport == Up) ==> r == NodeStep(n, [])
  {
    if Recruits(p, n, id) then ConnectTo(p, n, id, t) else NodeStep(n, [])
  }

  /** The `d.list.forEach` of a PEER_EX, calling `connectTo` for each id the
      guard lets through, on the registry as the earlier calls left it. */
  function FollowPeerEx(p: Params, n: Node, list: seq<PeerId>, t: Clock): (r: NodeStep)
    ensures SameSelf(n, r.node)
    ensures forall k :: k in n.conns.entries ==> k in r.node.conns.entries && r.node.conns.entries[k] == n.conns.entries[k]
    ensures n.conns.order <= r.node.conns.order
    ensures Size(n.conns) >= p.maxPeersNormal ==> r == NodeStep(n, [])
    ensures Size(n.conns) < p.maxPeersNormal ==> Size(r.node.conns) <= p.maxPeersNormal
    ensures forall e :: e in r.fx ==>
      && e.Dial?
      && e.link.peer in list && e.link.peer != "" && e.link.peer != n.myId
      && !Has(n.conns, e.link.peer)
    decreases |list|
  {
    if |list| == 0 then NodeStep(n, [])
    else
      var id := list[0];
      var first := Recruit(p, n, id, t);
      var rest := FollowPeerEx(p, first.node, list[1..], t);
      assert forall x :: x in list[1..] ==> x in list;
      NodeStep(rest.node, first.fx + rest.fx)
  }

  /** Each id of a PEER_EX is dialled at most once: the dials are as many as
      the new entries, go to pairwise distinct peers, and each dialled peer
      ends holding the placeholder of its own dial. */
  lemma FollowPeerExDialsOnce(p: Params, n: Node, list: seq<PeerId>, t: Clock)
    ensures var r := FollowPeerEx(p, n, list, t);
      && |r.fx| == Size(r.node.conns) - Size(n.conns)
      && DistinctDials(r.fx)
      && (forall e :: e in r.fx ==>
            e.Dial? && e.link.peer in r.node.conns.entries
            && r.node.conns.entries[e.link.peer] == Conn(e.link.handle, false, t.synced, None, None))
  {
    FollowPeerExCount(p, n, list, t);
    FollowPeerExDistinct(p, n, list, t);
    FollowPeerExPlaceholders(p, n, list, t);
  }

  lemma {:induction false} FollowPeerExCount(p: Params, n: Node, list: seq<PeerId>, t: Clock)
    ensures |FollowPeerEx(p, n, list, t).fx| == Size(FollowPeerEx(p, n, list, t).node.conns) - Size(n.conns)
    decreases |list|
  {
    if |list| > 0 {
      var first := Recruit(p, n, list[0], t);
      FollowPeerExCount(p, first.node, list[1..], t);
    }
  }

  lemma {:induction false} FollowPeerExPlaceholders(p: Params, n: Node, list: seq<PeerId>, t: Clock)
    ensures var r := FollowPeerEx(p, n, list, t);
      forall e :: e in r.fx ==>
        e.Dial? && e.link.peer in r.node.conns.entries
        && r.node.conns.entries[e.link.peer] == Conn(e.link.handle, false, t.synced, None, None)
    decreases |list|
  {
    if |list| > 0 {
      var first := Recruit(p, n, list[0], t);
      var rest := FollowPeerEx(p, first.node, list[1..], t);
      FollowPeerExPlaceholders(p, first.node, list[1..], t);
      assert FollowPeerEx(p, n, list, t).fx == first.fx + rest.fx;
      assert FollowPeerEx(p, n, list, t).node == rest.node;
    }
  }

  lemma {:induction false} FollowPeerExDistinct(p: Params, n: Node, list: seq<PeerId>, t: Clock)
    ensures DistinctDials(FollowPeerEx(p, n, list, t).fx)
    decreases |list|
  {
    if |list| > 0 {
      var first := Recruit(p, n, list[0], t);
      var rest := FollowPeerEx(p, first.node, list[1..], t);
      FollowPeerExDistinct(p, first.node, list[1..], t);
      assert FollowPeerEx(p, n, list, t).fx == first.fx + rest.fx;
      assert forall x :: x in first.fx ==> x.Dial? && Has(first.node.conns, x.link.peer);
      DistinctDialsCons(first.fx, rest.fx);
    }
  }

  /** Every effect is a dial, and no peer is dialled twice. */
  predicate DistinctDials(fx: seq<Effect>) {
    forall i, j :: 0 <= i < j < |fx| ==> fx[i].Dial? && fx[j].Dial? && fx[i].link.peer != fx[j].link.peer
  }

  lemma DistinctDialsCons(a: seq<Effect>, b: seq<Effect>)
    requires |a| <= 1 && DistinctDials(b)
    requires forall x :: x in a ==> x.Dial?
    requires forall y :: y in b ==> y.Dial?
    requires forall x, y :: x in a && y in b ==> x.link.peer != y.link.peer
    ensures DistinctDials(a + b)
  {
    var fx := a + b;
    forall i, j | 0 <= i < j < |fx| ensures fx[i].Dial? && fx[j].Dial? && fx[i].link.peer != fx[j].link.peer {
      assert fx[j] == b[j - |a|];
      if i >= |a| {
        assert fx[i] == b[i - |a|];
      } else {
        assert fx[i] in a && fx[j] in b;
      }
    }
  }

  /** A PEER_EX is followed as far as capacity allows: afterwards every listed
      id other than the empty one and our own has a registry entry, unless
      the registry reached the normal-node bound. */
  lemma {:induction false} FollowPeerExCovers(p: Params, n: Node, list: seq<PeerId>, t: Clock)
    requires n.transport == Up
    ensures var r := FollowPeerEx(p, n, list, t);
      forall id :: id in list && id != "" && id != n.myId ==>
        Has(r.node.conns, id) || Size(r.node.conns) >= p.maxPeersNormal
    decreases |list|
  {
    if |list| > 0 {
      var first := Recruit(p, n, list[0], t);
      FollowPeerExCovers(p, first.node, list[1..], t);
      assert forall x :: x in list ==> x == list[0] || x in list[1..];
    }
  }

  /** `d.ts || 0` */
  function TsOrZero(ts: Option<int>): int {
    if ts.Some? then ts.value else 0
  }

  function DeliverAll(items: seq<Payload>): (fx: seq<Effect>)
    ensures |fx| == |items|
    ensures forall e :: e in fx ==> e.ProcessIncoming?
    ensures forall i :: 0 <= i < |items| ==> fx[i] == ProcessIncoming(items[i], None)
  {
    if |items| == 0 then [] else [ProcessIncoming(items[0], None)] + DeliverAll(items[1..])
  }

  /** A PEER_EX whose `list` field may be missing: nothing to follow then. */
  function FollowList(p: Params, n: Node, list: Option<seq<PeerId>>, t: Clock): (r: NodeStep)
    ensures SameSelf(n, r.node)
    ensures forall k :: k in n.conns.entries ==> k in r.node.conns.entries && r.node.conns.entries[k] == n.conns.entries[k]
    ensures forall e :: e in r.fx && e.Dial? ==>
      && list.Some? && e.link.peer in list.value
      && e.link.peer != "" && e.link.peer != n.myId && !Has(n.conns, e.link.peer)
    ensures Size(n.conns) >= p.maxPeersNormal ==> r == NodeStep(n, [])
  {
    if list.Some? then FollowPeerEx(p, n, list.value, t) else NodeStep(n, [])
  }

  /** `handleData(d, conn)`: every message, typed or not, refreshes the link's
      liveness stamp first; then dispatch on `t`. */
  function HandleData(p: Params, n: Node, link: LinkRef, d: LinkMsg, t: Clock): (r: NodeStep)
    ensures SameSelf(n, r.node)
    ensures Tracked(n, link) ==> Tracked(r.node, link) && r.node.conns.entries[link.peer].lastPong == Some(t.local)
    ensures d.Untyped? || d.Pong? || d.Unknown? ==> r.node == Refresh(n, link, t.local) && r.fx == []
    ensures d.Ping? ==> r.node == Refresh(n, link, t.local) && r.fx == [Send(link, Pong)]
    ensures d.Hello? ==>
      && r.node == Relabel(Refresh(n, link, t.local), link, d.name)
      && (Tracked(n, link) ==> r.node.conns.entries[link.peer].peerName == d.name)
      && r.fx == [Introduce(d.id, d.name)]
    ensures !d.PeerEx? && !d.Hello? ==> r.node == Refresh(n, link, t.local)
    ensures d.PeerEx? ==> r == FollowList(p, Refresh(n, link, t.local), d.list, t)
    ensures !d.PeerEx? ==> Keys(r.node.conns) == Keys(n.conns)
    ensures d.PeerEx? && Size(n.conns) >= p.maxPeersNormal ==> r.node == Refresh(n, link, t.local) && r.fx == []
    ensures d.AskPub? ==> r.fx == [QueryPublicAfter(link, TsOrZero(d.ts))]
    ensures d.RepPub? ==> r.fx == if d.items.Some? then DeliverAll(d.items.value) else []
    ensures d.Chat? ==> r.fx == [ProcessIncoming(d.body, Some(link.peer))]
  {
    Dispatch(p, Refresh(n, link, t.local), link, d, t)
  }

  /** The `switch (d.t)` of `handleData`, on the node after the liveness refresh. */
  function Dispatch(p: Params, m: Node, link: LinkRef, d: LinkMsg, t: Clock): (r: NodeStep)
    ensures SameSelf(m, r.node)
    ensures Tracked(m, link) ==>
      Tracked(r.node, link) && r.node.conns.entries[link.peer].lastPong == m.conns.entries[link.peer].lastPong
    ensures d.Untyped? || d.Pong? || d.Unknown? ==> r == NodeStep(m, [])
    ensures d.Ping? ==> r == NodeStep(m, [Send(link, Pong)])
    ensures d.Hello? ==> r == NodeStep(Relabel(m, link, d.name), [Introduce(d.id, d.name)])
    ensures d.PeerEx? ==> r == FollowList(p, m, d.list, t)
    ensures !d.PeerEx? ==> Keys(r.node.conns) == Keys(m.conns)
    ensures d.AskPub? ==> r.fx == [QueryPublicAfter(link, TsOrZero(d.ts))]
    ensures d.RepPub? ==> forall e :: e in r.fx ==> e.ProcessIncoming?
    ensures d.Chat? ==> r.fx == [ProcessIncoming(d.body, Some(link.peer))]
  {
    match d
    case Untyped => NodeStep(m, [])
    case Ping => NodeStep(m, [Send(link, Pong)])
    case Pong => NodeStep(m, [])
    case Hello(name, id) => NodeStep(Relabel(m, link, name), [Introduce(id, name)])
    case PeerEx(list) => FollowList(p, m, list, t)
    case AskPub(ts) => NodeStep(m, [QueryPublicAfter(link, TsOrZero(ts))])
    case RepPub(items) =>
      if items.Some? then NodeStep(m, DeliverAll(items.value)) else NodeStep(m, [])
    case Chat(body) => NodeStep(m, [ProcessIncoming(body, Some(link.peer))])
    case Unknown(_) => NodeStep(m, [])
  }

  /** Only a PEER_EX makes `handleData` dial, and then only listed ids that
      are neither empty, nor ours, nor already in the registry. */
  lemma HandleDataDials(p: Params, n: Node, link: LinkRef, d: LinkMsg, t: Clock)
    ensures forall e :: e in HandleData(p, n, link, d, t).fx && e.Dial? ==>
      && d.PeerEx? && d.list.Some? && e.link.peer in d.list.value
      && e.link.peer != "" && e.link.peer != n.myId && !Has(n.conns, e.link.peer)
  {
  }

  /** The link's `data` event: only admitted links have a data handler. */
  function OnData(p: Params, n: Node, link: LinkRef, d: LinkMsg, t: Clock): (r: NodeStep)
    ensures !(link.handle in n.setups && n.setups[link.handle] == Admit) ==> r == NodeStep(n, [])
    ensures link.handle in n.setups && n.setups[link.handle] == Admit ==> r == HandleData(p, n, link, d, t)
    ensures link.handle in n.setups && n.setups[link.handle] == Admit && Tracked(n, link) ==>
      Tracked(r.node, link) && r.node.conns.entries[link.peer].lastPong == Some(t.local)
  {
    if link.handle in n.setups && n.setups[link.handle] == Admit then HandleData(p, n, link, d, t)
    else NodeStep(n, [])
  }

  /** The continuation of an ASK_PUB's `db.getPublicAfter`: answer only when
      there is something to send. */
  function OnPublicLoaded(link: LinkRef, items: seq<Payload>): (fx: seq<Effect>)
    ensures items == [] <==> fx == []
    ensures items != [] ==> fx == [Send(link, RepPub(Some(items)))]
  {
    if |items| > 0 then [Send(link, RepPub(Some(items)))] else []
  }

  /** A delayed `if (conn.open) conn.send(msg)` firing. The link object's own
      `open` flag is read from the transport library: the registry may no
      longer hold that object. */
  function OnSendTimer(link: LinkRef, msg: LinkMsg, linkOpen: bool): (fx: seq<Effect>)
    ensures fx != [] <==> linkOpen
    ensures forall e :: e in fx ==> e == Send(link, msg)
    ensures |fx| <= 1
  {
    if linkOpen then [Send(link, msg)] else []
  }

  // ---------------------------------------------------------------------------
  // patrolHubs

  /** `connectTo` applied to each id in turn. */
  function ConnectEach(p: Params, n: Node, ids: seq<PeerId>, t: Clock): (r: NodeStep)
    ensures SameSelf(n, r.node)
    ensures forall k :: IsOpen(r.node.conns, k) <==> IsOpen(n.conns, k)
    ensures forall k :: k !in ids ==> Get(r.node.conns, k) == Get(n.conns, k)
    ensures n.conns.order <= r.node.conns.order
    ensures n.transport != Up ==> r == NodeStep(n, [])
    decreases |ids|
  {
    if |ids| == 0 then NodeStep(n, [])
    else
      var first := ConnectTo(p, n, ids[0], t);
      var rest := ConnectEach(p, first.node, ids[1..], t);
      NodeStep(rest.node, first.fx + rest.fx)
  }

  /** The hub identities from index `i` on that have no open link, in index order. */
  function Unopened(p: Params, r: Registry, i: nat): (ids: seq<PeerId>)
    ensures forall j :: i <= j < p.hubCount ==> (HubId(p, j) in ids <==> !IsOpen(r, HubId(p, j)))
    ensures forall id :: id in ids ==> !IsOpen(r, id) && exists j :: i <= j < p.hubCount && id == HubId(p, j)
    decreases p.hubCount - i
  {
    if i >= p.hubCount then []
    else
      var rest := Unopened(p, r, i + 1);
      if IsOpen(r, HubId(p, i)) then rest else [HubId(p, i)] + rest
  }

  function PatrolFrom(p: Params, n: Node, i: nat, t: Clock): (r: NodeStep)
    ensures SameSelf(n, r.node)
    ensures forall k :: IsOpen(r.node.conns, k) <==> IsOpen(n.conns, k)
    decreases p.hubCount - i
  {
    if i >= p.hubCount then NodeStep(n, [])
    else
      var id := HubId(p, i);
      var first := if !IsOpen(n.conns, id) then ConnectTo(p, n, id, t) else NodeStep(n, []);
      var rest := PatrolFrom(p, first.node, i + 1, t);
      NodeStep(rest.node, first.fx + rest.fx)
  }

  /** `patrolHubs()`: try every well-known hub identity that has no open link. */
  function PatrolHubs(p: Params, n: Node, t: Clock): (r: NodeStep)
    ensures SameSelf(n, r.node)
    ensures forall k :: IsOpen(r.node.conns, k) <==> IsOpen(n.conns, k)
  {
    PatrolFrom(p, n, 0, t)
  }

  // ---------------------------------------------------------------------------
  // maintenance

  /** A link that never opened and has outlived the connection timeout
      (`created` is always set, so `c.created || 0` is just `created`). */
  predicate Abandoned(p: Params, c: Conn, now: int) {
    !c.open && now - c.created > p.connTimeout
  }

  /** `c.lastPong` is truthy: present and non-zero. */
  predicate PongSeen(c: Conn) {
    c.lastPong.Some? && c.lastPong.value != 0
  }

  /** An open link whose last sign of life is older than the ping timeout. */
  predicate Silent(p: Params, c: Conn, now: int) {
    c.open && PongSeen(c) && now - c.lastPong.value > p.pingTimeout
  }

  /** A silent link that maintenance closes: one whose id is not hub-prefixed. */
  predicate Evicted(p: Params, pid: PeerId, c: Conn, now: int) {
    Silent(p, c, now) && !StartsWith(pid, p.hubPrefix)
  }

  /** Maintenance removes this entry. */
  predicate Doomed(p: Params, pid: PeerId, c: Conn, now: int) {
    Abandoned(p, c, now) || Evicted(p, pid, c, now)
  }

  datatype Pruned = Pruned(conns: Registry, fx: seq<Effect>)

  lemma DistinctTail<T>(ks: seq<T>)
    requires |ks| > 0 && Distinct(ks)
    ensures Distinct(ks[1..]) && ks[0] !in ks[1..]
    ensures forall k :: k in ks[1..] ==> k in ks
  {
    forall j | 1 <= j < |ks| ensures ks[j] != ks[0] { }
  }

  /** The pruning `forEach` over a snapshot `ks` of the keys. Each visit looks
      up the entry afresh; only the visited key is ever deleted, so every later
      key of the snapshot is still present when its turn comes. */
  function Prune(p: Params, r: Registry, ks: seq<PeerId>, now: int): (res: Pruned)
    requires Distinct(ks)
    requires forall k :: k in ks ==> k in r.entries
    decreases |ks|
  {
    if |ks| == 0 then Pruned(r, [])
    else
      var pid := ks[0];
      var c := r.entries[pid];
      DistinctTail(ks);
      if Abandoned(p, c, now) then
        Prune(p, Remove(r, pid), ks[1..], now)
      else if Evicted(p, pid, c, now) then
        var rest := Prune(p, Remove(r, pid), ks[1..], now);
        Pruned(rest.conns, [CloseLink(LinkRef(pid, c.handle))] + rest.fx)
      else
        Prune(p, r, ks[1..], now)
  }

  /** Pruning keeps exactly the entries that are not doomed, each unchanged. */
  lemma {:induction false} PruneKeeps(p: Params, r: Registry, ks: seq<PeerId>, now: int)
    requires Distinct(ks)
    requires forall k :: k in ks ==> k in r.entries
    ensures forall k :: k in Prune(p, r, ks, now).conns.entries <==> k in r.entries && !(k in ks && Doomed(p, k, r.entries[k], now))
    ensures forall k :: k in Prune(p, r, ks, now).conns.entries ==> Prune(p, r, ks, now).conns.entries[k] == r.entries[k]
    decreases |ks|
  {
    if |ks| > 0 {
      var pid := ks[0];
      DistinctTail(ks);
      if Doomed(p, pid, r.entries[pid], now) {
        PruneKeeps(p, Remove(r, pid), ks[1..], now);
      } else {
        PruneKeeps(p, r, ks[1..], now);
      }
    }
  }

  /** Pruning only deletes: the surviving keys keep their relative order. */
  lemma {:induction false} PruneKeepsOrder(p: Params, r: Registry, ks: seq<PeerId>, now: int)
    requires Distinct(ks)
    requires forall k :: k in ks ==> k in r.entries
    ensures SubseqOf(Keys(Prune(p, r, ks, now).conns), Keys(r))
    decreases |ks|
  {
    if |ks| == 0 {
      SubseqRefl(Keys(r));
    } else {
      var pid := ks[0];
      DistinctTail(ks);
      if Doomed(p, pid, r.entries[pid], now) {
        PruneKeepsOrder(p, Remove(r, pid), ks[1..], now);
        SubseqTrans(Keys(Prune(p, Remove(r, pid), ks[1..], now).conns), Keys(Remove(r, pid)), Keys(r));
      } else {
        PruneKeepsOrder(p, r, ks[1..], now);
      }
    }
  }

  /** When nothing in the snapshot is doomed, pruning returns the registry as it was. */
  lemma {:induction false} PruneNothingDoomed(p: Params, r: Registry, ks: seq<PeerId>, now: int)
    requires Distinct(ks)
    requires forall k :: k in ks ==> k in r.entries
    requires forall k :: k in ks ==> !Doomed(p, k, r.entries[k], now)
    ensures Prune(p, r, ks, now) == Pruned(r, [])
    decreases |ks|
  {
    if |ks| > 0 {
      DistinctTail(ks);
      PruneNothingDoomed(p, r, ks[1..], now);
    }
  }

  /** Pruning closes exactly the evicted links, each through its own handle. */
  lemma {:induction false} PruneCloses(p: Params, r: Registry, ks: seq<PeerId>, now: int)
    requires Distinct(ks)
    requires forall k :: k in ks ==> k in r.entries
    ensures forall e :: e in Prune(p, r, ks, now).fx ==>
      && e.CloseLink? && e.link.peer in ks && e.link.peer in r.entries
      && e.link.handle == r.entries[e.link.peer].handle
      && Evicted(p, e.link.peer, r.entries[e.link.peer], now)
    ensures forall k :: k in ks && Evicted(p, k, r.entries[k], now) ==>
      CloseLink(LinkRef(k, r.entries[k].handle)) in Prune(p, r, ks, now).fx
    decreases |ks|
  {
    if |ks| > 0 {
      var pid := ks[0];
      var c := r.entries[pid];
      DistinctTail(ks);
      if Doomed(p, pid, c, now) {
        PruneCloses(p, Remove(r, pid), ks[1..], now);
      } else {
        PruneCloses(p, r, ks[1..], now);
      }
    }
  }

  /** The gossip `forEach` over the links: every open one gets a PING and then the packet. */
  function Gossip(r: Registry, ks: seq<PeerId>, pkt: LinkMsg): (fx: seq<Effect>)
    requires forall k :: k in ks ==> k in r.entries
  {
    if |ks| == 0 then []
    else
      var c := r.entries[ks[0]];
      var rest := Gossip(r, ks[1..], pkt);
      assert forall k :: k in ks[1..] ==> k in ks;
      if c.open then
        var link := LinkRef(ks[0], c.handle);
        [Send(link, Ping), Send(link, pkt)] + rest
      else rest
  }

  /** Gossip only sends, and only to open links among `ks` through their own handle. */
  lemma {:induction false} GossipTargets(r: Registry, ks: seq<PeerId>, pkt: LinkMsg)
    requires forall k :: k in ks ==> k in r.entries
    ensures forall e :: e in Gossip(r, ks, pkt) ==>
      && e.Send? && e.link.peer in ks && IsOpen(r, e.link.peer)
      && e.link.handle == r.entries[e.link.peer].handle
  {
    if |ks| > 0 {
      assert forall k :: k in ks[1..] ==> k in ks;
      GossipTargets(r, ks[1..], pkt);
    }
  }

  /** `fx` is a run of pairs, each a PING followed by `pkt` on the same link. */
  predicate PingThenPacket(fx: seq<Effect>, pkt: LinkMsg)
    decreases |fx|
  {
    if |fx| == 0 then true
    else
      && |fx| >= 2
      && fx[0].Send? && fx[0].msg == Ping
      && fx[1] == Send(fx[0].link, pkt)
      && PingThenPacket(fx[2..], pkt)
  }

  lemma {:induction false} GossipPairs(r: Registry, ks: seq<PeerId>, pkt: LinkMsg)
    requires forall k :: k in ks ==> k in r.entries
    ensures PingThenPacket(Gossip(r, ks, pkt), pkt)
  {
    if |ks| > 0 {
      assert forall k :: k in ks[1..] ==> k in ks;
      GossipPairs(r, ks[1..], pkt);
      var rest := Gossip(r, ks[1..], pkt);
      var c := r.entries[ks[0]];
      if c.open {
        var link := LinkRef(ks[0], c.handle);
        assert ([Send(link, Ping), Send(link, pkt)] + rest)[2..] == rest;
      }
    }
  }

  /** Every message of a run of pairs is a PING or the packet. */
  lemma {:induction false} PairsCarryPingOrPacket(fx: seq<Effect>, pkt: LinkMsg)
    requires PingThenPacket(fx, pkt)
    ensures forall e :: e in fx ==> e.Send? && (e.msg == Ping || e.msg == pkt)
    decreases |fx|
  {
    if |fx| > 0 {
      PairsCarryPingOrPacket(fx[2..], pkt);
      assert forall e :: e in fx ==> e == fx[0] || e == fx[1] || e in fx[2..];
    }
  }

  /** Every open link among `ks` gets both the PING and the packet. */
  lemma {:induction false} GossipCovers(r: Registry, ks: seq<PeerId>, pkt: LinkMsg)
    requires forall k :: k in ks ==> k in r.entries
    ensures forall k :: k in ks && IsOpen(r, k) ==>
      && Send(LinkRef(k, r.entries[k].handle), Ping) in Gossip(r, ks, pkt)
      && Send(LinkRef(k, r.entries[k].handle), pkt) in Gossip(r, ks, pkt)
  {
    if |ks| > 0 {
      assert forall k :: k in ks[1..] ==> k in ks;
      GossipCovers(r, ks[1..], pkt);
    }
  }

  /** The gossip packet: a PEER_EX of the first `GOSSIP_SIZE` keys. */
  function GossipPacket(p: Params, r: Registry): LinkMsg {
    PeerEx(Some(Take(Keys(r), p.gossipSize)))
  }

  /** `maintenance()`: prune abandoned and silent links (hub-prefixed ids are
      exempt from the silence rule), then, if any link is left, send every
      open one a PING followed by the gossip packet. */
  function Maintenance(p: Params, n: Node, t: Clock): (r: NodeStep)
    ensures SameSelf(n, r.node) && r.node.setups == n.setups && r.node.nextHandle == n.nextHandle
    ensures forall k :: Has(r.node.conns, k) <==> Has(n.conns, k) && !Doomed(p, k, n.conns.entries[k], t.local)
    ensures forall k :: k in r.node.conns.entries ==> k in n.conns.entries && r.node.conns.entries[k] == n.conns.entries[k]
    ensures SubseqOf(Keys(r.node.conns), Keys(n.conns))
    ensures |r.fx| >= 1 && r.fx[|r.fx| - 1] == RenderList
    ensures forall e :: e in r.fx ==> e.Send? || e.CloseLink? || e == RenderList
  {
    var pruned := PruneAll(p, n.conns, t.local);
    var gossip := GossipRound(p, pruned.conns);
    var fx := pruned.fx + gossip + [RenderList];
    assert forall e :: e in fx ==> e in pruned.fx || e in gossip || e == RenderList;
    NodeStep(n.(conns := pruned.conns), fx)
  }

  /** Maintenance closes exactly the evicted links, each through its own object. */
  lemma MaintenanceCloses(p: Params, n: Node, t: Clock)
    ensures var r := Maintenance(p, n, t);
      forall e :: e in r.fx && e.CloseLink? ==>
        && e.link.peer in n.conns.entries && e.link.handle == n.conns.entries[e.link.peer].handle
        && Evicted(p, e.link.peer, n.conns.entries[e.link.peer], t.local)
    ensures var r := Maintenance(p, n, t);
      forall k :: k in n.conns.entries && Evicted(p, k, n.conns.entries[k], t.local) ==>
        CloseLink(LinkRef(k, n.conns.entries[k].handle)) in r.fx
  {
    var pruned := PruneAll(p, n.conns, t.local);
    var gossip := GossipRound(p, pruned.conns);
    assert Maintenance(p, n, t).fx == pruned.fx + gossip + [RenderList];
  }

  /** Maintenance sends only to the links that survived it, only PING or the
      gossip packet of the pruned registry, and every open survivor gets both. */
  lemma MaintenanceGossips(p: Params, n: Node, t: Clock)
    ensures var r := Maintenance(p, n, t);
      forall e :: e in r.fx && e.Send? ==>
        && IsOpen(r.node.conns, e.link.peer) && e.link.handle == r.node.conns.entries[e.link.peer].handle
        && (e.msg == Ping || e.msg == GossipPacket(p, r.node.conns))
    ensures var r := Maintenance(p, n, t);
      forall k :: IsOpen(r.node.conns, k) ==>
        && Send(LinkRef(k, r.node.conns.entries[k].handle), Ping) in r.fx
        && Send(LinkRef(k, r.node.conns.entries[k].handle), GossipPacket(p, r.node.conns)) in r.fx
  {
    var pruned := PruneAll(p, n.conns, t.local);
    var gossip := GossipRound(p, pruned.conns);
    assert Maintenance(p, n, t).fx == pruned.fx + gossip + [RenderList];
  }

  /** The pruning pass of maintenance over a snapshot of all keys. */
  function PruneAll(p: Params, r: Registry, now: int): (res: Pruned)
    ensures forall k :: Has(res.conns, k) <==> Has(r, k) && !Doomed(p, k, r.entries[k], now)
    ensures forall k :: k in res.conns.entries ==> k in r.entries && res.conns.entries[k] == r.entries[k]
    ensures SubseqOf(Keys(res.conns), Keys(r))
    ensures forall e :: e in res.fx ==>
      && e.CloseLink? && e.link.peer in r.entries && e.link.handle == r.entries[e.link.peer].handle
      && Evicted(p, e.link.peer, r.entries[e.link.peer], now)
    ensures forall k :: k in r.entries && Evicted(p, k, r.entries[k], now) ==>
      CloseLink(LinkRef(k, r.entries[k].handle)) in res.fx
  {
    PruneKeeps(p, r, Keys(r), now);
    PruneCloses(p, r, Keys(r), now);
    PruneKeepsOrder(p, r, Keys(r), now);
    Prune(p, r, Keys(r), now)
  }

  /** The gossip pass of maintenance: nothing when the registry is empty. */
  function GossipRound(p: Params, r: Registry): (fx: seq<Effect>)
    ensures forall e :: e in fx ==>
      && e.Send? && IsOpen(r, e.link.peer) && e.link.handle == r.entries[e.link.peer].handle
      && (e.msg == Ping || e.msg == GossipPacket(p, r))
    ensures forall k :: IsOpen(r, k) ==>
      && Send(LinkRef(k, r.entries[k].handle), Ping) in fx
      && Send(LinkRef(k, r.entries[k].handle), GossipPacket(p, r)) in fx
  {
    var all := Keys(r);
    var pkt := GossipPacket(p, r);
    var gossip := if |all| > 0 then Gossip(r, all, pkt) else [];
    GossipSendsOnly(r, all, pkt, gossip);
    gossip
  }

  /** The message-level reading of the gossip lemmas used by maintenance. */
  lemma GossipSendsOnly(r: Registry, all: seq<PeerId>, pkt: LinkMsg, gossip: seq<Effect>)
    requires all == Keys(r)
    requires gossip == if |all| > 0 then Gossip(r, all, pkt) else []
    ensures forall e :: e in gossip ==>
      && e.Send? && IsOpen(r, e.link.peer) && e.link.handle == r.entries[e.link.peer].handle
      && (e.msg == Ping || e.msg == pkt)
    ensures forall k :: IsOpen(r, k) ==>
      Send(LinkRef(k, r.entries[k].handle), Ping) in gossip && Send(LinkRef(k, r.entries[k].handle), pkt) in gossip
  {
    if |all| > 0 {
      GossipTargets(r, all, pkt);
      GossipPairs(r, all, pkt);
      PairsCarryPingOrPacket(gossip, pkt);
      GossipCovers(r, all, pkt);
    }
  }

  // ---------------------------------------------------------------------------
  // start and the transport's own events

  datatype ErrorClass = PeerUnavailable | BrowserIncompatible | SessionDisconnected | NetworkFault | Unclassified

  /** The network-class error types after which the transport is restarted. */
  const RestartTypes: set<string> := {"network", "server-error", "socket-error", "socket-closed"}

  /** The transport error taxonomy of `start`'s error handler. */
  function Classify(ty: string): (k: ErrorClass)
    ensures k == PeerUnavailable <==> ty == "peer-unavailable"
    ensures k == BrowserIncompatible <==> ty == "browser-incompatible"
    ensures k == SessionDisconnected <==> ty == "disconnected"
    ensures k == NetworkFault <==> ty in RestartTypes
  {
    if ty == "peer-unavailable" then PeerUnavailable
    else if ty == "browser-incompatible" then BrowserIncompatible
    else if ty == "disconnected" then SessionDisconnected
    else if ty in RestartTypes then NetworkFault
    else Unclassified
  }

  /** The transport's `error` event. */
  function OnPeerError(n: Node, ty: string): (r: NodeStep)
    ensures r.node.conns == n.conns && r.node.transport == n.transport
    ensures Classify(ty) == SessionDisconnected <==> Reconnect in r.fx
    ensures Classify(ty) == BrowserIncompatible <==> r.fx == [Alert]
    ensures Classify(ty) == NetworkFault <==> r.fx == [After(5000, RestartP2P)]
    ensures Classify(ty) == PeerUnavailable || Classify(ty) == Unclassified ==> r == NodeStep(n, [])
    ensures NoteReconnecting in r.fx <==> Classify(ty) == SessionDisconnected && !n.searchLogShown
  {
    match Classify(ty)
    case PeerUnavailable => NodeStep(n, [])
    case BrowserIncompatible => NodeStep(n, [Alert])
    case SessionDisconnected =>
      if n.searchLogShown then NodeStep(n, [Reconnect])
      else NodeStep(n.(searchLogShown := true), [NoteReconnecting, Reconnect])
    case NetworkFault => NodeStep(n, [After(5000, RestartP2P)])
    case Unclassified => NodeStep(n, [])
  }

  /** PeerJS drops the signalling session (`peer.disconnected`) or the whole
      handle (`peer.destroyed`) on its own; the overlay only reads the flag. */
  function Lapse(n: Node, destroyed: bool): (r: NodeStep)
    ensures r.fx == [] && r.node.conns == n.conns
    ensures r.node.transport != Up
    ensures destroyed <==> r.node.transport == Destroyed
    ensures destroyed <==> Start(r.node).fx == [CreatePeer(n.myId)]
  {
    NodeStep(n.(transport := if destroyed then Destroyed else Disconnected), [])
  }

  /** `start()`: a no-op while a handle exists that is not destroyed. */
  function Start(n: Node): (r: NodeStep)
    ensures r.node == n
    ensures r.fx != [] <==> n.transport == NoPeer || n.transport == Destroyed
    ensures r.fx != [] ==> r.fx == [CreatePeer(n.myId)]
  {
    if n.transport == NoPeer || n.transport == Destroyed then NodeStep(n, [CreatePeer(n.myId)]) else NodeStep(n, [])
  }

  /** The transport's `open` event: adopt the granted id, reset the reconnect
      notice, then patrol the hubs. */
  function OnPeerOpen(p: Params, n: Node, id: PeerId, t: Clock): (r: NodeStep)
    ensures r.node.myId == id && r.node.transport == Up && !r.node.searchLogShown
    ensures var n1 := n.(myId := id, transport := Up, searchLogShown := false);
      r.node == PatrolHubs(p, n1, t).node && r.fx == [UpdateSelf] + PatrolHubs(p, n1, t).fx
  {
    var n1 := n.(myId := id, transport := Up, searchLogShown := false);
    var patrol := PatrolHubs(p, n1, t);
    NodeStep(patrol.node, [UpdateSelf] + patrol.fx)
  }
}

=== FILE: p2p_props.dfy ===
/** Properties of the transport manager that relate several handler calls or
    compare a handler with an independent description of its outcome. */
module P2PProps {
  import opened Basics
  import opened Registry
  import opened Protocol
  import opened P2P

  /** The ids among `ids` that pass the `connectTo` guard against node `n`, in order. */
  function Wanted(n: Node, ids: seq<PeerId>): (ws: seq<PeerId>)
    ensures forall id :: id in ws <==> id in ids && WantsLink(n, id)
    ensures |ws| <= |ids|
  {
    if |ids| == 0 then []
    else if WantsLink(n, ids[0]) then [ids[0]] + Wanted(n, ids[1..])
    else Wanted(n, ids[1..])
  }

  lemma {:induction false} WantedDependsOnOpenOnly(a: Node, b: Node, ids: seq<PeerId>)
    requires a.myId == b.myId
    requires forall k :: IsOpen(a.conns, k) <==> IsOpen(b.conns, k)
    ensures Wanted(a, ids) == Wanted(b, ids)
  {
    if |ids| > 0 {
      WantedDependsOnOpenOnly(a, b, ids[1..]);
    }
  }

  lemma {:induction false} WantedDistinct(n: Node, ids: seq<PeerId>)
    requires Distinct(ids)
    ensures Distinct(Wanted(n, ids))
  {
    if |ids| > 0 {
      assert Distinct(ids[1..]) && ids[0] !in ids[1..] by {
        forall j | 1 <= j < |ids| ensures ids[j] != ids[0] { }
      }
      WantedDistinct(n, ids[1..]);
      if WantsLink(n, ids[0]) {
        DistinctCons(ids[0], Wanted(n, ids[1..]));
      }
    }
  }

  /** Calling `connectTo` on a list dials exactly the ids that pass its guard
      on the starting node: no call opens a link, so no call changes the
      guard's verdict for a later one. */
  lemma {:induction false} ConnectEachDials(p: Params, n: Node, ids: seq<PeerId>, t: Clock)
    requires n.transport == Up
    ensures Dialed(ConnectEach(p, n, ids, t).fx) == Wanted(n, ids)
    decreases |ids|
  {
    if |ids| > 0 {
      var first := ConnectTo(p, n, ids[0], t);
      var rest := ConnectEach(p, first.node, ids[1..], t);
      ConnectEachDials(p, first.node, ids[1..], t);
      WantedDependsOnOpenOnly(first.node, n, ids[1..]);
      DialedAppend(first.fx, rest.fx);
    }
  }

  lemma {:induction false} UnopenedDependsOnOpenOnly(p: Params, a: Registry, b: Registry, i: nat)
    requires forall k :: IsOpen(a, k) <==> IsOpen(b, k)
    ensures Unopened(p, a, i) == Unopened(p, b, i)
    decreases p.hubCount - i
  {
    if i < p.hubCount {
      UnopenedDependsOnOpenOnly(p, a, b, i + 1);
    }
  }

  /** One step of `connectTo` over a list: the head, then the tail from the node it left. */
  lemma ConnectEachCons(p: Params, n: Node, id: PeerId, tail: seq<PeerId>, t: Clock)
    ensures
      var first := ConnectTo(p, n, id, t);
      var rest := ConnectEach(p, first.node, tail, t);
      ConnectEach(p, n, [id] + tail, t) == NodeStep(rest.node, first.fx + rest.fx)
  {
    assert ([id] + tail)[0] == id && ([id] + tail)[1..] == tail;
  }

  /** One step of patrol at an index whose hub has no open link. */
  lemma PatrolFromClosed(p: Params, n: Node, i: nat, t: Clock)
    requires i < p.hubCount && !IsOpen(n.conns, HubId(p, i))
    ensures
      var first := ConnectTo(p, n, HubId(p, i), t);
      var rest := PatrolFrom(p, first.node, i + 1, t);
      && PatrolFrom(p, n, i, t) == NodeStep(rest.node, first.fx + rest.fx)
      && Unopened(p, n.conns, i) == [HubId(p, i)] + Unopened(p, n.conns, i + 1)
  {
  }

  /** One step of patrol at an index whose hub link is open. */
  lemma PatrolFromOpen(p: Params, n: Node, i: nat, t: Clock)
    requires i < p.hubCount && IsOpen(n.conns, HubId(p, i))
    ensures PatrolFrom(p, n, i, t) == PatrolFrom(p, n, i + 1, t)
    ensures Unopened(p, n.conns, i) == Unopened(p, n.conns, i + 1)
  {
    assert [] + PatrolFrom(p, n, i + 1, t).fx == PatrolFrom(p, n, i + 1, t).fx;
  }

  /** Patrol, which tests each hub id just before calling `connectTo`, is the
      same as calling `connectTo` on the list of hub ids that lacked an open
      link when the patrol began. */
  lemma {:induction false} PatrolIsConnectEach(p: Params, n: Node, i: nat, t: Clock)
    ensures PatrolFrom(p, n, i, t) == ConnectEach(p, n, Unopened(p, n.conns, i), t)
    decreases p.hubCount - i
  {
    if i < p.hubCount {
      var id := HubId(p, i);
      if IsOpen(n.conns, id) {
        PatrolFromOpen(p, n, i, t);
        PatrolIsConnectEach(p, n, i + 1, t);
      } else {
        var first := ConnectTo(p, n, id, t);
        PatrolFromClosed(p, n, i, t);
        UnopenedDependsOnOpenOnly(p, first.node.conns, n.conns, i + 1);
        PatrolIsConnectEach(p, first.node, i + 1, t);
        ConnectEachCons(p, n, id, Unopened(p, n.conns, i + 1), t);
      }
    }
  }

  /** `patrolHubs` calls `connectTo` for exactly the hub ids without an open
      link, in index order, and the dials it causes are those ids that also
      pass the `connectTo` guard. */
  lemma PatrolHubsCalls(p: Params, n: Node, t: Clock)
    ensures PatrolHubs(p, n, t) == ConnectEach(p, n, Unopened(p, n.conns, 0), t)
    ensures n.transport == Up ==> Dialed(PatrolHubs(p, n, t).fx) == Wanted(n, Unopened(p, n.conns, 0))
    ensures n.transport != Up ==> PatrolHubs(p, n, t) == NodeStep(n, [])
  {
    PatrolIsConnectEach(p, n, 0, t);
    if n.transport == Up {
      ConnectEachDials(p, n, Unopened(p, n.conns, 0), t);
    }
  }

  /** `connectTo` over a list only dials, and only ids of that list. */
  lemma {:induction false} ConnectEachOnlyDials(p: Params, n: Node, ids: seq<PeerId>, t: Clock)
    ensures forall e :: e in ConnectEach(p, n, ids, t).fx ==> e.Dial? && e.link.peer in ids
    decreases |ids|
  {
    if |ids| > 0 {
      var first := ConnectTo(p, n, ids[0], t);
      ConnectEachOnlyDials(p, first.node, ids[1..], t);
      assert forall id :: id in ids[1..] ==> id in ids;
    }
  }

  /** Every effect of a patrol is a dial to a well-known hub identity. */
  lemma PatrolOnlyDialsHubs(p: Params, n: Node, t: Clock)
    ensures forall e :: e in PatrolHubs(p, n, t).fx ==>
      e.Dial? && exists i :: 0 <= i < p.hubCount && e.link.peer == HubId(p, i)
  {
    PatrolIsConnectEach(p, n, 0, t);
    ConnectEachOnlyDials(p, n, Unopened(p, n.conns, 0), t);
  }

  /** With every hub link open, patrol does nothing at all. */
  lemma PatrolAllOpenIsNoop(p: Params, n: Node, t: Clock)
    requires forall j :: 0 <= j < p.hubCount ==> IsOpen(n.conns, HubId(p, j))
    ensures PatrolHubs(p, n, t) == NodeStep(n, [])
  {
    PatrolIsConnectEach(p, n, 0, t);
    AllOpenNoneUnopened(p, n.conns, 0);
  }

  lemma {:induction false} AllOpenNoneUnopened(p: Params, r: Registry, i: nat)
    requires forall j :: 0 <= j < p.hubCount ==> IsOpen(r, HubId(p, j))
    ensures Unopened(p, r, i) == []
    decreases p.hubCount - i
  {
    if i < p.hubCount {
      AllOpenNoneUnopened(p, r, i + 1);
    }
  }

  /** Hub ids are pairwise distinct, so the unopened list has no repeats. */
  lemma {:induction false} UnopenedDistinct(p: Params, r: Registry, i: nat)
    ensures Distinct(Unopened(p, r, i))
    decreases p.hubCount - i
  {
    if i < p.hubCount {
      UnopenedDistinct(p, r, i + 1);
      var rest := Unopened(p, r, i + 1);
      if !IsOpen(r, HubId(p, i)) {
        forall id | id in rest ensures id != HubId(p, i) {
          var j :| i + 1 <= j < p.hubCount && id == HubId(p, j);
          PrefixedDecimalInjective(p.hubPrefix, i, j);
        }
        DistinctCons(HubId(p, i), rest);
      }
    }
  }

  /** One patrol never dials the same hub twice. */
  lemma PatrolDialsDistinct(p: Params, n: Node, t: Clock)
    requires n.transport == Up
    ensures Distinct(Dialed(PatrolHubs(p, n, t).fx))
  {
    PatrolHubsCalls(p, n, t);
    UnopenedDistinct(p, n.conns, 0);
    WantedDistinct(n, Unopened(p, n.conns, 0));
  }

  /** A full node dialling a new id pushes its registry one past the bound:
      the placeholder is inserted before any capacity check, and it is its own
      setup that then takes the rejection path. */
  lemma PlaceholderOverfills(p: Params, n: Node, id: PeerId, t: Clock)
    requires n.transport == Up && WantsLink(n, id) && !Has(n.conns, id)
    requires Size(n.conns) == Capacity(p, n)
    ensures Size(ConnectTo(p, n, id, t).node.conns) == Capacity(p, n) + 1
    ensures ConnectTo(p, n, id, t).node.setups[n.nextHandle] == Reject
  {
  }

  /** A rejected outbound placeholder outlives its own link. While the link
      is open its entry is open too, so `connectTo` leaves that id alone.
      Neither the open nor the close of the link removes its key: the entry
      stays, closed, with the creation time of the dial. Afterwards, until
      maintenance prunes it, the next `connectTo` for that id replaces it with a
      fresh placeholder. */
  lemma RejectedPlaceholderLingers(p: Params, n: Node, id: PeerId, t: Clock, t2: Clock, t3: Clock)
    requires n.transport == Up && WantsLink(n, id)
    requires Size(n.conns) >= Capacity(p, n)
    ensures
      var s0 := ConnectTo(p, n, id, t);
      var link := LinkRef(id, n.nextHandle);
      var s1 := OnOpen(s0.node, link, t2);
      var s2 := OnGone(s1.node, link);
      && IsOpen(s1.node.conns, id)
      && ConnectTo(p, s1.node, id, t3) == NodeStep(s1.node, [])
      && Has(s2.node.conns, id) && !IsOpen(s2.node.conns, id)
      && s2.node.conns.entries[id].created == t.synced
      && Size(s2.node.conns) >= Capacity(p, n)
      && ConnectTo(p, s2.node, id, t3).node.conns.entries[id] == Conn(s2.node.nextHandle, false, t3.synced, None, None)
  {
    var s0 := ConnectTo(p, n, id, t);
    var link := LinkRef(id, n.nextHandle);
    assert Tracked(s0.node, link);
    var s1 := OnOpen(s0.node, link, t2);
    assert Tracked(s1.node, link);
  }

  /** An inbound link that arrives at a full node is turned away: the
      registry keeps exactly its keys, and the link receives one PEER_EX with
      at most ten of them before it is closed. */
  lemma FullNodeTurnsAwayInbound(p: Params, n: Node, peer: PeerId, t: Clock)
    requires Size(n.conns) >= Capacity(p, n)
    ensures
      var s1 := OnConnection(p, n);
      var link := LinkRef(peer, n.nextHandle);
      var s2 := OnOpen(s1.node, link, t);
      && Keys(s2.node.conns) == Keys(n.conns)
      && s2.fx == [Send(link, PeerEx(Some(Take(Keys(n.conns), 10)))), After(500, CloseLater(link))]
  {
  }

  /** Close and error are idempotent: a second one for the same link leaves
      the registry as the first left it. */
  lemma GoneTwiceIsGoneOnce(n: Node, link: LinkRef)
    ensures OnGone(OnGone(n, link).node, link).node.conns == OnGone(n, link).node.conns
  {
    var once := OnGone(n, link).node;
    if link.handle in n.setups && n.setups[link.handle] == Admit {
      assert !Has(once.conns, link.peer);
    }
  }

  /** Pruning settles: a second maintenance pass at the same instant removes nothing more. */
  lemma MaintenanceSettles(p: Params, n: Node, t: Clock)
    ensures Maintenance(p, Maintenance(p, n, t).node, t).node.conns == Maintenance(p, n, t).node.conns
  {
    var once := Maintenance(p, n, t).node;
    PruneNothingDoomed(p, once.conns, Keys(once.conns), t.local);
  }

  /** An open link to a hub-prefixed id survives maintenance however long it has been silent. */
  lemma OpenHubLinksSurvive(p: Params, n: Node, t: Clock, k: PeerId)
    requires IsOpen(n.conns, k) && StartsWith(k, p.hubPrefix)
    ensures IsOpen(Maintenance(p, n, t).node.conns, k)
  {
  }

  /** Every well-known hub identity is hub-prefixed, so all of them enjoy the exemption. */
  lemma HubIdsAreHubPrefixed(p: Params, i: nat)
    ensures StartsWith(HubId(p, i), p.hubPrefix)
  {
  }

  /** The reconnect notice appears at most once per disconnect episode: a
      second `disconnected` error only reconnects, and the transport's next
      `open` re-arms the notice. */
  lemma ReconnectNoticeOnce(p: Params, n: Node, id: PeerId, t: Clock)
    ensures
      var s1 := OnPeerError(n, "disconnected");
      var s2 := OnPeerError(s1.node, "disconnected");
      && s2.fx == [Reconnect]
      && (NoteReconnecting in s1.fx <==> !n.searchLogShown)
    ensures
      var s3 := OnPeerOpen(p, OnPeerError(n, "disconnected").node, id, t);
      OnPeerError(s3.node, "disconnected").fx == [NoteReconnecting, Reconnect]
  {
  }
}

=== FILE: protocol.dfy ===
/** What the overlay exchanges with the outside world: the tunable constants,
    the clock readings a handler sees, the messages carried over links and over
    the presence channel, and the effects a handler asks its environment to
    perform (sends, dials, timers, calls into collaborators). */
module Protocol {
  import opened Basics
  import opened Registry

  /** The `NET_PARAMS` constants. Their values live in a configuration file
      that is not part of this model, so every handler takes them as input. */
  datatype Params = Params(
    maxPeersHub: nat,
    maxPeersNormal: nat,
    hubCount: nat,
    hubPrefix: string,
    connTimeout: int,
    pingTimeout: int,
    gossipSize: nat,
    retryDelay: int,
    loopInterval: int)

  /** The presence-broker part of the configuration (`config.mqtt`). */
  datatype BrokerConfig = BrokerConfig(broker: string, port: nat, path: string, proxyHost: string, topic: string)

  /** Clock readings while a handler runs. The source reads two clocks:
      `Date.now()` (local) and the synchronised `util.now()`. */
  datatype Clock = Clock(local: int, synced: int)

  /** A particular link object, talking to `peer`. */
  datatype LinkRef = LinkRef(peer: PeerId, handle: Handle)

  /** An application message, passed through to the message store untouched. */
  type Payload = string

  /** Messages carried over a link, classified by their `t` field.
      `Untyped` is a falsy message or one whose `t` is missing or empty;
      `Unknown` carries any other tag. A list field that is not an array is `None`. */
  datatype LinkMsg =
    | Untyped
    | Hello(name: Option<string>, id: Option<PeerId>)
    | Ping
    | Pong
    | PeerEx(list: Option<seq<PeerId>>)
    | AskPub(ts: Option<int>)
    | RepPub(items: Option<seq<Payload>>)
    | Chat(body: Payload)
    | Unknown(tag: string)

  /** A parsed presence-channel payload. `isPulse` holds when its `type` is
      the hub-pulse tag; missing fields are `None`. */
  datatype Presence = Presence(isPulse: bool, id: Option<PeerId>, hubIndex: Option<int>, ts: Option<int>)

  /** Where and how the presence client connects. */
  datatype Route = Route(host: string, port: nat, path: string, timeout: nat, isProxy: bool)

  type TimerId = nat

  /** Work handed to `setTimeout`. */
  datatype Task =
    | SendIfOpen(link: LinkRef, msg: LinkMsg)
    | CloseLater(link: LinkRef)
    | RestartP2P
    | RestartPresence
    | InitialCheck

  /** Work handed to `setInterval`. */
  datatype Repeating = LoopTick | PulseTick

  datatype Effect =
    | CreatePeer(self: PeerId)                        // new Peer(myId, ...)
    | Dial(link: LinkRef)                             // peer.connect(id)
    | Send(link: LinkRef, msg: LinkMsg)               // conn.send(...)
    | CloseLink(link: LinkRef)                        // conn.close()
    | Reconnect                                       // p.reconnect()
    | NoteReconnecting                                // the one-per-episode reconnect notice
    | Alert                                           // the incompatible-browser dialog
    | Introduce(sender: Option<PeerId>, name: Option<string>)   // protocol.processIncoming({senderId, n})
    | ProcessIncoming(body: Payload, from: Option<PeerId>)      // protocol.processIncoming(m[, peer])
    | QueryRecent(link: LinkRef)                      // db.getRecent(1, 'all') for this link
    | QueryPublicAfter(link: LinkRef, ts: int)        // db.getPublicAfter(ts) for this link
    | RetryPending                                    // protocol.retryPending()
    | RenderList                                      // ui.renderList()
    | UpdateSelf                                      // ui.updateSelf()
    | ConnectBroker(route: Route)                     // client.connect(opts)
    | Subscribe(topic: string)
    | Publish(payload: Presence)
    | Resign                                          // hub.resign()
    | ConnectToAnyHub                                 // hub.connectToAnyHub()
    | SyncTime                                        // util.syncTime()
    | After(delay: int, task: Task)                   // setTimeout
    | StartInterval(timer: TimerId, period: int, job: Repeating)   // setInterval
    | StopInterval(timer: TimerId)                    // clearInterval

  /** The peer ids a sequence of effects dials, in order. */
  function Dialed(fx: seq<Effect>): (ids: seq<PeerId>)
    ensures |ids| <= |fx|
    ensures forall id :: id in ids <==> exists e :: e in fx && e.Dial? && e.link.peer == id
  {
    if |fx| == 0 then []
    else
      var rest := Dialed(fx[1..]);
      assert forall e :: e in fx[1..] ==> e in fx;
      if fx[0].Dial? then [fx[0].link.peer] + rest else rest
  }

  lemma {:induction false} DialedAppend(a: seq<Effect>, b: seq<Effect>)
    ensures Dialed(a + b) == Dialed(a) + Dialed(b)
  {
    if |a| > 0 {
      assert (a + b)[1..] == a[1..] + b;
      DialedAppend(a[1..], b);
    } else {
      assert a + b == b;
    }
  }
}

=== FILE: registry.dfy ===
/** The connection table `state.conns`: a JavaScript object from peer id to
    link object. Two facts of JavaScript objects matter to the overlay: a key
    occurs at most once, and `Object.keys` reports keys in the order they were
    first inserted (overwriting a key keeps its place, deleting it forgets it).
    Both are captured by pairing the map with its key order. */
module Registry {
  import opened Basics

  /** Identity of one link object (a PeerJS data connection). */
  type Handle = nat

  /** What the overlay reads of one link object. `lastPong` and `peerName` (the JavaScript `label`) stay
      absent until the link has opened and introduced itself. */
  datatype Conn = Conn(handle: Handle, open: bool, created: int, lastPong: Option<int>, peerName: Option<string>)

  datatype Table = Table(order: seq<PeerId>, entries: map<PeerId, Conn>)

  ghost predicate Distinct<T>(s: seq<T>) {
    forall i, j :: 0 <= i < j < |s| ==> s[i] != s[j]
  }

  ghost predicate WellFormed(t: Table) {
    && Distinct(t.order)
    && (forall k :: k in t.entries <==> k in t.order)
  }

  type Registry = t: Table | WellFormed(t) witness Table([], map[])

  /** `Object.keys(conns)` */
  function Keys(r: Registry): (ks: seq<PeerId>)
    ensures forall k :: k in ks <==> k in r.entries
  {
    r.order
  }

  /** `Object.keys(conns).length` */
  function Size(r: Registry): nat {
    |r.order|
  }

  /** `conns[id]` is truthy (link objects always are). */
  predicate Has(r: Registry, id: PeerId) {
    id in r.entries
  }

  /** `conns[id] && conns[id].open` */
  predicate IsOpen(r: Registry, id: PeerId) {
    id in r.entries && r.entries[id].open
  }

  function Get(r: Registry, id: PeerId): Option<Conn> {
    if id in r.entries then Some(r.entries[id]) else None
  }

  /** `conns[id] = c`: a new key goes to the end of the key order, an existing
      key keeps its place and only its link changes. */
  function Put(r: Registry, id: PeerId, c: Conn): (r': Registry)
    ensures r'.entries == r.entries[id := c]
    ensures r.order <= r'.order
    ensures Has(r, id) ==> r'.order == r.order
    ensures Size(r') == if Has(r, id) then Size(r) else Size(r) + 1
  {
    if id in r.entries then Table(r.order, r.entries[id := c])
    else Table(r.order + [id], r.entries[id := c])
  }

  /** `a` is `b` with some elements dropped and the rest in their order. */
  predicate SubseqOf<T(==)>(a: seq<T>, b: seq<T>)
    decreases |b|
  {
    if |a| == 0 then true
    else if |b| == 0 then false
    else if a[0] == b[0] then SubseqOf(a[1..], b[1..])
    else SubseqOf(a, b[1..])
  }

  lemma {:induction false} SubseqRefl<T>(a: seq<T>)
    ensures SubseqOf(a, a)
    decreases |a|
  {
    if |a| > 0 {
      SubseqRefl(a[1..]);
    }
  }

  /** Dropping elements twice is dropping elements once. */
  lemma {:induction false} SubseqTrans<T>(a: seq<T>, b: seq<T>, c: seq<T>)
    requires SubseqOf(a, b) && SubseqOf(b, c)
    ensures SubseqOf(a, c)
    decreases |c|
  {
    if |a| > 0 && |c| > 0 {
      if b[0] == c[0] {
        if a[0] == b[0] {
          SubseqTrans(a[1..], b[1..], c[1..]);
        } else {
          SubseqTrans(a, b[1..], c[1..]);
        }
      } else {
        SubseqTrans(a, b, c[1..]);
        if a[0] == c[0] {
          SubseqDropHead(a, c[1..]);
        }
      }
    }
  }

  /** A subsequence stays one without its first element. */
  lemma {:induction false} SubseqDropHead<T>(a: seq<T>, b: seq<T>)
    requires |a| > 0 && SubseqOf(a, b)
    ensures SubseqOf(a[1..], b)
    decreases |b|, |a|
  {
    if a[0] == b[0] {
      SubseqSkip(a[1..], b);
    } else {
      SubseqDropHead(a, b[1..]);
      SubseqSkip(a[1..], b);
    }
  }

  /** A subsequence of the tail is one of the whole. */
  lemma {:induction false} SubseqSkip<T>(a: seq<T>, b: seq<T>)
    requires |b| > 0 && SubseqOf(a, b[1..])
    ensures SubseqOf(a, b)
    decreases |b|, |a|
  {
    if |a| > 0 && a[0] == b[0] {
      SubseqDropHead(a, b[1..]);
    }
  }

  /** `delete conns[id]`; deleting an absent key changes nothing, and the
      other keys keep their relative order. */
  function Remove(r: Registry, id: PeerId): (r': Registry)
    ensures r'.entries == r.entries - {id}
    ensures SubseqOf(Keys(r'), Keys(r))
    ensures !Has(r, id) ==> r' == r
    ensures Size(r') == if Has(r, id) then Size(r) - 1 else Size(r)
  {
    Table(Without(r.order, id), r.entries - {id})
  }

  /** `s` with every occurrence of `x` dropped, the rest in order. */
  function Without(s: seq<PeerId>, x: PeerId): (r: seq<PeerId>)
    ensures forall y :: y in r <==> y in s && y != x
    ensures Distinct(s) ==> Distinct(r)
    ensures x !in s ==> r == s
    ensures Distinct(s) && x in s ==> |r| == |s| - 1
    ensures SubseqOf(r, s)
  {
    if |s| == 0 then []
    else if s[0] == x then Without(s[1..], x)
    else
      var rest := Without(s[1..], x);
      assert ([s[0]] + rest)[1..] == rest;
      assert Distinct(s) ==> Distinct([s[0]] + rest) by {
        if Distinct(s) {
          assert s[0] !in s[1..] by {
            forall j | 1 <= j < |s| ensures s[j] != s[0] { }
          }
          DistinctCons(s[0], rest);
        }
      }
      [s[0]] + rest
  }

  lemma DistinctCons<T>(a: T, t: seq<T>)
    requires a !in t && Distinct(t)
    ensures Distinct([a] + t)
  {
    var s := [a] + t;
    forall i, j | 0 <= i < j < |s| ensures s[i] != s[j] {
      if i > 0 {
        assert s[i] == t[i - 1] && s[j] == t[j - 1];
      } else {
        assert s[j] == t[j - 1];
      }
    }
  }

  /** The keys whose link is open, in key order: `Object.keys(conns).filter(k => conns[k].open)`. */
  function OpenKeys(r: Registry): (ks: seq<PeerId>)
    ensures forall k :: k in ks <==> IsOpen(r, k)
    ensures Distinct(ks) && SubseqOf(ks, Keys(r))
    ensures |ks| <= Size(r)
  {
    OpenAmong(r, r.order)
  }

  function OpenAmong(r: Registry, ks: seq<PeerId>): (os: seq<PeerId>)
    ensures forall k :: k in os <==> k in ks && IsOpen(r, k)
    ensures Distinct(ks) ==> Distinct(os)
    ensures SubseqOf(os, ks)
    ensures |os| <= |ks|
  {
    if |ks| == 0 then []
    else
      var rest := OpenAmong(r, ks[1..]);
      assert Distinct(ks) ==> Distinct(ks[1..]) && ks[0] !in rest by {
        if Distinct(ks) {
          forall j | 1 <= j < |ks| ensures ks[j] != ks[0] { }
        }
      }
      if IsOpen(r, ks[0]) then
        assert ([ks[0]] + rest)[1..] == rest;
        assert Distinct(ks) ==> Distinct([ks[0]] + rest) by {
          if Distinct(ks) {
            DistinctCons(ks[0], rest);
          }
        }
        [ks[0]] + rest
      else rest
  }

  /** Deleting twice is the same as deleting once. */
  lemma RemoveIdempotent(r: Registry, id: PeerId)
    ensures Remove(Remove(r, id), id) == Remove(r, id)
  {
  }
}

=== FILE: world.dfy ===
/** The whole client process as the overlay sees it: the transport manager's
    node, the presence session of `window.mqtt`, the hub heartbeat table, the
    document's visibility and the repeating timers (`setInterval`) alive in the
    page. */
module World {
  import opened Basics
  import opened Registry
  import opened Protocol
  import opened P2P

  /** `state.mqttStatus` */
  datatype Status = Unset | Online | Failed | Lost

  /** `mqtt.client` as far as the overlay reads it: absent, or a client whose
      connection is pending, established, or gone. Only `Connected` answers
      `isConnected()` with true. */
  datatype Client = NoClient | Connecting | Connected | Dropped

  /** The fields of `window.mqtt` plus the status it writes into the shared state. */
  datatype Session = Session(client: Client, failCount: nat, status: Status, pulseTimer: Option<TimerId>)

  /** `heartbeats` is `state.hubHeartbeats`, keyed by the announced hub index
      (`None` for a pulse that carried none). `loopTimer` is `app.loopTimer`;
      `intervals` are the repeating timers alive, by id; `nextTimer` is the id
      the next `setInterval` returns (browsers hand out positive, never reused ids). */
  datatype World = World(
    node: Node,
    session: Session,
    heartbeats: map<Option<int>, int>,
    hidden: bool,
    loopTimer: Option<TimerId>,
    intervals: map<TimerId, Repeating>,
    nextTimer: TimerId)

  datatype WorldStep = WorldStep(world: World, fx: seq<Effect>)

  /** The world right after the page's scripts loaded, before `app.init`. */
  function Fresh(node: Node, hidden: bool): World {
    World(node, Session(NoClient, 0, Unset, None), map[], hidden, None, map[], 1)
  }

  /** The timer variables name exactly the live repeating timers of their kind,
      and every live timer was handed out already. So at most one main loop and
      at most one presence pulse ever run. */
  ghost predicate TimersConsistent(w: World) {
    && (forall id :: id in w.intervals && w.intervals[id] == LoopTick <==> w.loopTimer == Some(id))
    && (forall id :: id in w.intervals && w.intervals[id] == PulseTick <==> w.session.pulseTimer == Some(id))
    && (forall id :: id in w.intervals ==> id < w.nextTimer)
  }

  /** `setInterval(job, period)`: registers a fresh timer and names it. */
  function SetInterval(w: World, period: int, job: Repeating): (r: WorldStep)
    ensures r.world.nextTimer == w.nextTimer + 1
    ensures r.world.intervals == w.intervals[w.nextTimer := job]
    ensures r.fx == [StartInterval(w.nextTimer, period, job)]
    ensures r.world == w.(intervals := r.world.intervals, nextTimer := r.world.nextTimer)
  {
    WorldStep(w.(intervals := w.intervals[w.nextTimer := job], nextTimer := w.nextTimer + 1),
              [StartInterval(w.nextTimer, period, job)])
  }

  /** `clearInterval(id)`; clearing a dead timer is harmless. */
  function ClearInterval(w: World, id: TimerId): (r: WorldStep)
    ensures r.world.intervals == w.intervals - {id}
    ensures id !in r.world.intervals
    ensures r.fx == [StopInterval(id)]
    ensures r.world == w.(intervals := r.world.intervals)
  {
    WorldStep(w.(intervals := w.intervals - {id}), [StopInterval(id)])
  }

  /** At most one main loop timer is alive in a consistent world. */
  lemma OneLoopTimer(w: World, a: TimerId, b: TimerId)
    requires TimersConsistent(w)
    requires a in w.intervals && w.intervals[a] == LoopTick
    requires b in w.intervals && w.intervals[b] == LoopTick
    ensures a == b
  {
    assert w.loopTimer == Some(a) && w.loopTimer == Some(b);
  }

  /** At most one presence pulse timer is alive in a consistent world. */
  lemma OnePulseTimer(w: World, a: TimerId, b: TimerId)
    requires TimersConsistent(w)
    requires a in w.intervals && w.intervals[a] == PulseTick
    requires b in w.intervals && w.intervals[b] == PulseTick
    ensures a == b
  {
    assert w.session.pulseTimer == Some(a) && w.session.pulseTimer == Some(b);
  }

  /** Handlers that touch neither timer variable nor the timer table keep the invariant. */
  lemma TimersUntouched(w: World, w': World)
    requires TimersConsistent(w)
    requires w'.loopTimer == w.loopTimer && w'.session.pulseTimer == w.session.pulseTimer
    requires w'.intervals == w.intervals && w'.nextTimer == w.nextTimer
    ensures TimersConsistent(w')
  {
  }
}
